=== FILE: README.md ===
# Subtitle transcription and translation scripts, modelled in Dafny

The repository holds two scripts.

- `auto_whisper.py` transcribes videos. It merges the recognised speech segments whose start times lie close together, and writes each video's captions as a SubRip (`.srt`) file.
- `auto_translate.py` reads such a file and translates the caption texts in batches with a chat completion service. It sends each batch together with a few neighbouring captions as context, writes the translated texts back into the original records, and saves the file again.

This project models the pure core of both scripts and proves properties of it:

- the SRT writer and reader (`save_to_srt`, `load_from_srt`) and the "\n\n" join and split through which texts travel to the translator and back;
- the batch and context windowing loop of `translate_srt`;
- `merge_segments_by_time`, `format_time`, and the block layout `generate_subtitle` writes.

Modules, one per file:

| module | file | models |
|---|---|---|
| `Outcomes` | outcomes.dfy | `Option` and `Result`, standing in for raised exceptions |
| `Decimal` | decimal.dfy | `str(n)`, `int(digits)`, `f"{n:0W}"` and the regex `\d+` on ASCII digits |
| `PyText` | pytext.dfy | `str.strip()`, `"\n\n".join`, `str.split("\n\n")` |
| `Timecode` | timecode.dfy | `format_time` and the `HH:MM:SS,mmm` timestamp shape |
| `Srt` | srt.dfy | `save_to_srt` (the text written) and `load_from_srt` (the regex scan) |
| `BatchTranslate` | batch_translate.dfy | `translate_text` (the reply split) and the loop of `translate_srt` |
| `SegmentMerge` | segment_merge.dfy | `merge_segments_by_time` |
| `WhisperOutput` | whisper_output.dfy | the file `generate_subtitle` writes for one video |

The chat completion call is a parameter of type `Reply`. It maps the joined texts and the sentence count to the reply's content, or to `None` when the call raises.

Three behaviours of the code shape the model:

- `translate_text` re-raises whatever the call raises, except when the joined text is empty: then the handler's own `texts[0]` raises `IndexError` first, with the call's exception attached as its context (auto_translate.py:71-72). It never checks how many parts the reply has (auto_translate.py:69-72). A reply with too few parts surfaces as an `IndexError` at `translated_current[j]` in the inner loop (auto_translate.py:96).
- The kept slice starts at `context_size` at every step, including `i = 0` (auto_translate.py:90). The model reproduces this slicing (`AsWritten`) and also states the corrected one (`Aligned`); see Findings.
- A final record whose text ends in a line of digits does not survive a write and re-read (`Srt.TrailingNumberLineIsCut`), so `Srt.ParseSerialize` requires `NoIndexLine`.

## Model

| member | source | states |
|---|---|---|
| Decimal.NatToString | auto_translate.py:42 | `str(n)` is a non-empty run of digits, and it starts with `0` only for zero |
| Decimal.NatToStringRoundTrip | auto_translate.py:25 | `int(str(n)) == n`: the index the writer prints is read back as the same number |
| Decimal.DigitsRoundTrip | auto_translate.py:25 | `str(int(s)) == s` exactly for canonical digit runs (no leading zero unless the run is `0`) |
| Decimal.DigitsToNat | auto_translate.py:25 | no contract of its own: `int()` on a digit run; `NatToStringRoundTrip` and `DigitsRoundTrip` make it the inverse of `str` |
| Decimal.ZeroPad | auto_whisper.py:131 | `{n:0W}` is all digits, is `max(W, len(str(n)))` long (never truncated), and denotes `n` |
| Decimal.DigitRun | auto_translate.py:20 | greedy `\d+`: the longest digit prefix, stopped by the first non-digit |
| Decimal.DigitRunAppend | auto_translate.py:20 | the digit run of `a + b` crosses into `b` only when `a` is all digits |
| PyText.LStrip | auto_translate.py:28 | `lstrip()` leaves a result that is no longer than its input and does not start with whitespace |
| PyText.LStripDropsSpace | auto_translate.py:28 | what `lstrip()` removes is whitespace only |
| PyText.RStripDropsSpace | auto_translate.py:28 | what `rstrip()` removes is whitespace only |
| PyText.RStrip | auto_translate.py:28 | `rstrip()` leaves a result no longer than its input that does not end in whitespace; `RStripDropsSpace` says what it removes |
| PyText.Strip | auto_translate.py:28 | `strip()` leaves a result with neither end whitespace, no longer than the input |
| PyText.StripSurrounded | auto_translate.py:28 | stripping `lead + core + trail`, with whitespace-only `lead` and `trail` and a stripped `core`, gives `core` |
| PyText.StripIdempotent | auto_translate.py:28 | stripping twice is stripping once |
| PyText.JoinParagraphs | auto_translate.py:86 | no contract of its own: `"\n\n".join`; `SplitJoin` and `JoinSplit` make it the inverse of the split |
| PyText.SplitParagraphs | auto_translate.py:69 | `split("\n\n")` has at least one piece; the first piece is a prefix, followed by a separator when more pieces exist |
| PyText.JoinSplit | auto_translate.py:69 | joining the pieces of any split with "\n\n" gives back the split text |
| PyText.SplitJoin | auto_translate.py:86 | splitting the join of a list gives back the list, when no element holds "\n\n" and no element but the last ends in "\n" |
| PyText.SplitIsSplittable | auto_translate.py:69 | every split result meets the `SplitJoin` condition, so the two form a bijection |
| PyText.EmptyJoinSplitsToOnePiece | auto_translate.py:86 | joining an empty list and splitting it gives one empty piece, not an empty list |
| Timecode.FormatTime | auto_whisper.py:125-131 | no contract of its own: `format_time`; `FormatTimeIsFormatMillis` reduces it to whole milliseconds, and `FormatParseRoundTrip` reads it back |
| Timecode.FormatMillis | auto_whisper.py:127-131 | no contract of its own: the layout of a duration's fields; `FormatParseRoundTrip` is its inverse below 100 hours |
| Timecode.Layout | auto_whisper.py:131 | no contract of its own: the f-string `{hours:02}:{mins:02}:{secs:02},{millis:03}`; `LayoutParse` reads the fields back |
| Timecode.IsTimestamp | auto_translate.py:20 | no contract of its own: the `\d{2}:\d{2}:\d{2},\d{3}` group of the reader; `ShortTimeIsTimestamp` and `LongDurationOutgrowsTimestamp` say which written times it accepts |
| Timecode.ParseTimestamp | auto_translate.py:20 | no contract of its own: the milliseconds a timestamp denotes; `FormatParseRoundTrip` makes it the inverse of `FormatMillis` |
| Timecode.Fields | auto_whisper.py:127-130 | the two `divmod`s give `mins < 60`, `secs < 60`, `millis < 1000`, and the fields add back up to the total milliseconds |
| Timecode.TruncMillis | auto_whisper.py:127-128 | the whole milliseconds of a duration are the floor of `seconds * 1000` |
| Timecode.MillisSplit | auto_whisper.py:127-128 | `int(seconds)` and `int((seconds % 1) * 1000)` are the quotient and remainder of the whole milliseconds by 1000 |
| Timecode.FormatTimeIsFormatMillis | auto_whisper.py:125-131 | `format_time(seconds)` is the clock layout of the duration's whole milliseconds |
| Timecode.FormatParseRoundTrip | auto_whisper.py:131 | below 100 hours the output is a 12-character `HH:MM:SS,mmm` timestamp, and it reads back as the same milliseconds |
| Timecode.LongDurationOutgrowsTimestamp | auto_whisper.py:131 | from 100 hours on the hours field needs three or more digits, so the output is no longer a timestamp the reader accepts |
| Srt.Header | auto_translate.py:42-43 | no contract of its own: the index line and the timing line; `HeaderFields` shows the reader takes them apart again |
| Srt.Block | auto_translate.py:42-44 | no contract of its own: one record's block; `ParseBlock` reads it back as the record |
| Srt.Serialize | auto_translate.py:38-44 | no contract of its own: the text `save_to_srt` writes; `ParseSerialize` is its inverse and `SerializeAppend` its order |
| Srt.SerializeAppend | auto_translate.py:38-44 | the writer emits blocks in record order: writing `a + b` is writing `a`, then `b` |
| Srt.TextLength | auto_translate.py:20 | the lazy text group ends at the end of the content or where `\n\d+\n` follows |
| Srt.TextLengthIsLeast | auto_translate.py:20 | the lazy group is the shortest: the lookahead fails at every earlier position |
| Srt.Matched | auto_translate.py:24-34 | a match yields a record with well-formed timestamps and stripped text |
| Srt.MatchEnd | auto_translate.py:20-21 | a match consumes at least 32 characters and never runs past the content |
| Srt.Parse | auto_translate.py:16-36 | every record the reader returns has well-formed timestamps and stripped text, and there is at most one record per 32 characters; the file order of the records is fixed by `ParseBlock` and `ParseSerialize` |
| Srt.ParseBlock | auto_translate.py:20-44 | a written block is read back as its record, and reading resumes at the next block |
| Srt.ParseSerialize | auto_translate.py:20-44 | reading back what the writer wrote gives the same records, when timestamps are well formed, texts are stripped, and no text holds a line of digits alone |
| Srt.TrailingNumberLineIsCut | auto_translate.py:20-28 | a text whose last line is a number loses that line on the way back: only the part before it survives |
| Srt.DigitsLineHasNoRecord | auto_translate.py:20-21 | a lone line of digits followed by a blank line yields no record |
| BatchTranslate.Texts | auto_translate.py:86 | the list of texts has one entry per record, entry `k` being record `k`'s text |
| BatchTranslate.PySlice | auto_translate.py:90 | Python's `s[a:b]` clamps both bounds to the length and is empty when they cross |
| BatchTranslate.PySliceAt | auto_translate.py:90 | entry `k` of `s[a:b]` is entry `a + k` of `s` |
| BatchTranslate.TranslateText | auto_translate.py:69-72 | `translate_text` raises exactly when the call raises, and otherwise returns at least one piece |
| BatchTranslate.TranslateTextJoins | auto_translate.py:69 | the pieces `translate_text` returns join back into the reply's content |
| BatchTranslate.WindowStart | auto_translate.py:82 | no contract of its own: `max(i - context_size, 0)`; `WindowShape` bounds the window |
| BatchTranslate.WindowEnd | auto_translate.py:83 | no contract of its own: `min(i + batch_size + context_size, len)`; `WindowShape` bounds the window |
| BatchTranslate.Chunk | auto_translate.py:91 | no contract of its own: `subtitles[i:i + batch_size]`; `BatchesAt` identifies it with the `k`-th batch |
| BatchTranslate.Ask | auto_translate.py:84-87 | no contract of its own: the reply to the window; `ExactAsk`, `EchoAsk` and `RunTextAt` say what the run does with it |
| BatchTranslate.KeepFrom | auto_translate.py:90 | no contract of its own: where the kept slice starts; `AsWrittenShortIff` and `AlignedNeverShort` compare the two choices |
| BatchTranslate.Fill | auto_translate.py:91-97 | the inner loop raises `IndexError` exactly when the kept slice is shorter than the batch; otherwise it writes one record per batch record |
| BatchTranslate.FillKeepsHeaders | auto_translate.py:91-97 | record `j` keeps batch record `j`'s index and timestamps and gets text `j` of the kept slice |
| BatchTranslate.Step | auto_translate.py:84-97 | no contract of its own: one pass of the loop body; `StepKeeps` and `StepShortIff` specify it |
| BatchTranslate.BodyOf | auto_translate.py:81-97 | no contract of its own: the loop body at every offset; `BodyKeepsEverywhere` and `BodyAt` specify it |
| BatchTranslate.Loop | auto_translate.py:81-97 | no contract of its own: the `for` loop, stopping at the first raise; `LoopUnfold`, `LoopKeeps` and `LoopRecordAt` specify it |
| BatchTranslate.StepKeeps | auto_translate.py:82-97 | a step writes one record per batch record, with that record's header and kept-slice entry `o + j`; a failing step names its offset |
| BatchTranslate.LoopUnfold | auto_translate.py:81 | a run from `i` is the step at `i` followed by the run from `i + b`, and stops at the first failing step |
| BatchTranslate.LoopKeeps | auto_translate.py:81-97 | a run that gets through writes one record per input record, with every header unchanged; a failure names a step offset `i + q * b` inside the file |
| BatchTranslate.LoopGetsThrough | auto_translate.py:81 | when every step gets through, so does the run |
| BatchTranslate.LoopRecordAt | auto_translate.py:81-97 | output record `i + j`, for step `i = q * b`, is record `j` of that step's output |
| BatchTranslate.RunTextAt | auto_translate.py:81-97 | for any translator, output record `i + j` of a run that gets through carries entry `KeepFrom(i) + j` of the reply to step `i`'s window |
| BatchTranslate.TranslateSrt | auto_translate.py:76-99 | a zero batch size is refused (`range` raises), and only then |
| BatchTranslate.TranslateFile | auto_translate.py:76-99 | reading, translating and writing a file fails with the `range` error exactly for a zero batch size |
| BatchTranslate.TranslateKeepsHeaders | auto_translate.py:91-97 | a translation run keeps the number, order, indices and timestamps of the records; a failure names a step offset of `range(0, N, b)`: inside the file and a multiple of `b` |
| BatchTranslate.WindowShape | auto_translate.py:82-84 | the window at step `i` holds record `i` and its whole batch, and at most `b + 2c` records |
| BatchTranslate.Batches | auto_translate.py:81-91 | each slice `subtitles[i:i + b]` over the step offsets holds between 1 and `b` records |
| BatchTranslate.BatchesPartition | auto_translate.py:81-91 | the batch slices cover the records exactly once and in order, and all but the last are full |
| BatchTranslate.BatchesAt | auto_translate.py:81-91 | batch `k` is the slice the loop writes at its `k`-th step, `subtitles[i + k*b : i + k*b + b]` |
| BatchTranslate.BatchesCover | auto_translate.py:81 | every step offset below the length has its batch, so there is one batch per offset of `range(0, N, b)` |
| BatchTranslate.EchoIsExact | auto_translate.py:86-87 | a translator that echoes its input keeps the paragraph count of every non-empty list in which no text holds a blank line and none but the last ends in a newline |
| BatchTranslate.WindowSplittable | auto_translate.py:84-86 | when no text holds a blank line and none but the last ends in a newline in the file, the same holds of every window's texts |
| BatchTranslate.WindowTextAt | auto_translate.py:84-86 | text `k` sent at step `i` is the text of record `start_idx + k` |
| BatchTranslate.ExactAsk | auto_translate.py:84-87 | when no text holds a blank line and none but the last ends in a newline, an exact-length translator replies at step `i` with one piece per window record |
| BatchTranslate.EchoAsk | auto_translate.py:84-87 | when no text holds a blank line and none but the last ends in a newline, the echo translator replies at step `i` with the window's own texts |
| BatchTranslate.AsWrittenShortIff | auto_translate.py:90-96 | as written, the kept slice falls short of the batch exactly when `i < c` and the file has fewer than `b + c` records |
| BatchTranslate.AlignedNeverShort | auto_translate.py:82-96 | sliced from the batch's own offset in its window, the kept slice always covers the batch |
| BatchTranslate.StepShortIff | auto_translate.py:82-96 | given one reply piece per window record, a step fails exactly when sliced as written with `i < c` and fewer than `b + c` records |
| BatchTranslate.ExactStepFailsIff | auto_translate.py:81-97 | with an exact-length translator, when no text holds a blank line and none but the last ends in a newline, a step fails exactly when sliced as written with `i < c` and fewer than `b + c` records, and then on the index |
| BatchTranslate.ExactRunGetsThrough | auto_translate.py:76-99 | with an exact-length translator, when no text holds a blank line and none but the last ends in a newline, a run gets through when sliced aligned, when `c == 0`, or when the file has at least `b + c` records |
| BatchTranslate.ExactRunFailsIff | auto_translate.py:76-99 | as written, with an exact-length translator, when no text holds a blank line and none but the last ends in a newline, a run fails exactly when `c > 0` and `1 <= N < b + c`, at step 0 on the index |
| BatchTranslate.FittingRunFailsIff | auto_translate.py:76-99 | as written, for any texts, when every reply has one piece per window record, a run fails exactly when `c > 0` and `1 <= N < b + c`, at step 0 on the index |
| BatchTranslate.DefaultSizesFailOnShortFiles | auto_translate.py:76-99 | with the default sizes 10 and 2 and the echo translator, every file of 1 to 11 records in which no text holds a blank line and none but the last ends in a newline fails at step 0 on the index |
| BatchTranslate.EchoStepTexts | auto_translate.py:84-96 | with the echo translator, when no text holds a blank line and none but the last ends in a newline, record `j` of the batch at `i` gets the text of record `start_idx + offset + j` |
| BatchTranslate.EchoRunTexts | auto_translate.py:76-99 | as written, with the echo translator, when no text holds a blank line and none but the last ends in a newline, output record `i + j` carries the text of record `max(i - c, 0) + c + j`, its own text only when `i >= c` |
| BatchTranslate.EchoShiftsFirstBatchOf | auto_translate.py:76-99 | for any four records in which no text holds a blank line and none but the last ends in a newline, batches of 2 with 1 record of context and the echo translator, the texts come out as those of records 2, 3, 3, 4 |
| BatchTranslate.EchoShiftsFirstBatch | auto_translate.py:76-99 | records `a b c d`, batches of 2 with 1 record of context, echo translator: the texts come out as `b c c d` |
| BatchTranslate.WindowRepliedToItself | auto_translate.py:82-97 | a reply that is the window's own texts, sliced from the batch's own offset, writes every batch record back unchanged |
| BatchTranslate.LoopIdentity | auto_translate.py:81-97 | a run whose every pass hands its batch back unchanged reproduces the records from its start on |
| BatchTranslate.AlignedEchoStep | auto_translate.py:82-97 | sliced aligned, when no text holds a blank line and none but the last ends in a newline, the echo translator hands each batch back unchanged |
| BatchTranslate.AlignedEchoFrom | auto_translate.py:81-97 | sliced aligned, when no text holds a blank line and none but the last ends in a newline, an echo run from any step offset reproduces the records from there on |
| BatchTranslate.AlignedExactGetsThrough | auto_translate.py:76-99 | sliced aligned, when no text holds a blank line and none but the last ends in a newline, an exact-length translator never makes a run fail |
| BatchTranslate.AlignedEchoIsIdentity | auto_translate.py:76-99 | sliced aligned, when no text holds a blank line and none but the last ends in a newline, translating by echo leaves the records unchanged |
| BatchTranslate.AlignedEchoFileIsIdentity | auto_translate.py:16-99 | sliced aligned, when no text holds a blank line and none but the last ends in a newline, reading, echo-translating and writing a well-formed file gives the same file (as decoded text) |
| SegmentMerge.BreaksAt | auto_whisper.py:104 | no contract of its own: the gap test against the previous input's start; `BreaksIff` and `DefaultGapIsInclusive` specify it |
| SegmentMerge.Joined | auto_whisper.py:106-107 | no contract of its own: what a chained input adds to the text; `RepeatsCollapse` and `OnlyConsecutiveRepeatsDrop` specify it |
| SegmentMerge.Extend | auto_whisper.py:105-107 | no contract of its own: chaining one input onto the caption being built; `GroupedAfterChain` specifies it |
| SegmentMerge.GroupText | auto_whisper.py:96-107 | no contract of its own: the text of a group of inputs; `RepeatsCollapse` and `OnlyConsecutiveRepeatsDrop` specify it |
| SegmentMerge.Group | auto_whisper.py:92-114 | no contract of its own: the caption a group of inputs becomes; `MergeIsGrouping` shows the merge produces exactly these |
| SegmentMerge.FoldState | auto_whisper.py:90-117 | after `n` inputs, fewer than `n` captions are finished; the first caption starts at the first input's start; the one being built ends at input `n - 1`'s end |
| SegmentMerge.MergePrefix | auto_whisper.py:90-120 | after `n` inputs there are between 1 and `n` captions, from the first input's start to input `n - 1`'s end |
| SegmentMerge.Merge | auto_whisper.py:90-120 | an empty input raises (`segments[0]`); otherwise the output is non-empty, no longer than the input, starts at the first segment's start and ends at the last segment's end |
| SegmentMerge.MergeSegmentsByTime | auto_whisper.py:90-120 | the loop, with its running previous text and start, computes the left fold `Merge` |
| SegmentMerge.Breaks | auto_whisper.py:104-116 | the inputs that open a new caption lie among inputs `1 .. n - 1`, and there are fewer than `n` of them |
| SegmentMerge.BreaksIff | auto_whisper.py:104-116 | input `k >= 1` opens a new caption exactly when it starts more than the gap after input `k - 1` starts (not after the caption's start); breaks are listed in order |
| SegmentMerge.GroupedAfterBreak | auto_whisper.py:108-114 | reading a break finishes the caption being built as the group up to the break, and opens a one-input group |
| SegmentMerge.GroupedAfterChain | auto_whisper.py:104-107 | reading a non-break extends the group being built by one input: its end moves, and its text grows by the input's contribution |
| SegmentMerge.GroupedAtStart | auto_whisper.py:92-99 | before the loop, the first input alone is the caption being built |
| SegmentMerge.FoldIsGrouping | auto_whisper.py:90-117 | every loop state is the grouping of the inputs read so far |
| SegmentMerge.MergeIsGrouping | auto_whisper.py:90-120 | there is one caption per group, so one more than there are breaks; caption `g` starts at its leader's start, ends at its last input's end, and carries the group's text |
| SegmentMerge.RepeatsCollapse | auto_whisper.py:106-107 | a caption whose inputs all say the same text says it once |
| SegmentMerge.OnlyConsecutiveRepeatsDrop | auto_whisper.py:106-107 | only a repeat of the immediately preceding input is dropped: `a`, `b`, `a` in one caption gives `a b a` |
| SegmentMerge.EvenlySpacedChain | auto_whisper.py:104 | inputs each starting exactly the gap after the previous one chain into a single caption, however long |
| SegmentMerge.DefaultGapIsInclusive | auto_whisper.py:90-104 | at the default gap of 1.0 that `generate_subtitle` uses, two segments starting exactly one second apart form one caption, and any later start gives two |
| WhisperOutput.WriteBlock | auto_whisper.py:76-80 | no contract of its own: the block written for one caption; `WriteIsSerialize` identifies it with the translation script's block |
| WhisperOutput.WriteFrom | auto_whisper.py:74-80 | no contract of its own: the loop writing the blocks; `WriteIsSerialize` identifies it with `save_to_srt` |
| WhisperOutput.SubtitleFile | auto_whisper.py:73-80 | no contract of its own: the whole file for the captions; `TranscriptReadsBack` reads it back |
| WhisperOutput.Record | auto_whisper.py:74-80 | no contract of its own: the record a caption becomes; `NumberedAt` and `NumberedTimesAt` place it in the file |
| WhisperOutput.Numbering | auto_whisper.py:74-80 | numbering the captions gives one record per caption |
| WhisperOutput.NumberingAt | auto_whisper.py:74-80 | record `k` is caption `k` made into a record at position `from + k` |
| WhisperOutput.NumberedAt | auto_whisper.py:74-80 | record `k` has number `k + 1`, caption `k`'s formatted times and its stripped text |
| WhisperOutput.NumberedTimesAt | auto_whisper.py:76-77 | record `k` carries caption `k`'s start and end as `format_time` writes them |
| WhisperOutput.WriteIsSerialize | auto_whisper.py:74-80 | the file written for the captions is exactly what `save_to_srt` writes for the numbered records: the two scripts share one block layout |
| WhisperOutput.ShortTimeIsTimestamp | auto_whisper.py:76-77 | a time below 100 hours is written as a timestamp the translation script's reader accepts |
| WhisperOutput.TranscriptReadsBack | auto_whisper.py:74-80 | the translation script reads the written file back as the captions numbered 1 to n, with formatted times and stripped texts, when times lie below 100 hours and no stripped text holds a lone line of digits |
| WhisperOutput.MergeKeepsTimes | auto_whisper.py:90-120 | every merged caption starts at some input's start and ends at some input's end |
| WhisperOutput.MergeKeepsTimeBounds | auto_whisper.py:90-120 | non-negative times, and times below 100 hours, stay so after merging |
| WhisperOutput.GenerateSubtitle | auto_whisper.py:71-80 | no file for an empty transcription (merging raises), and a file otherwise; the gap is a parameter, `DefaultGap` at the call on line 71 |
| WhisperOutput.GeneratedFileReadsBack | auto_whisper.py:71-80 | the file written for a video is the layout of the merged captions, and, when times lie below 100 hours and no merged stripped text holds a lone line of digits, it reads back as them numbered 1 to n |
| WhisperOutput.ReadBackSpan | auto_whisper.py:71-80 | of the records written for the merged captions, the first starts at `format_time` of the first segment's start and the last ends at `format_time` of the last segment's end |

## Left out

- The chat completion client, its prompts and the environment loading (auto_translate.py:4-13, 46-68) are network calls. They become the `Reply` parameter: any function from the joined texts and the count to a reply or to a raise.
- `translate_subtitle` (directory walk, translating the file name, `os.rename`, the `is` string-identity test) and the directory walk of `generate_subtitle` are file-system work.
- The faster-whisper model and `model.transcribe` are speech-recognition inference. The model takes the segment list as its input.
- Reading and writing files and the skip-if-exists check are file-system effects. The model works on the content as a string.
- `print` diagnostics are not modelled.
- Floating point is not modelled: times are exact `real`s. The merge gap comparison and `int((seconds % 1) * 1000)` round differently on binary floats. For example `2.3 % 1 * 1000` is `299.99999999999983` in doubles, so `format_time(2.3)` prints `,299` where `Timecode.FormatTime(2.3)` has 300 milliseconds.
- Timecode.FormatTime: requires `seconds >= 0`. The recogniser never yields negative times. On negative input Python's floored `%` and truncating `int` disagree. For `-1 < seconds < 0` the result has no sign and the wrong time (`format_time(-0.5)` is `00:00:00,500`). From `-1` down, the floored `divmod` gives a negative hours field (`-1:59:59,500` for `-1.5`).
- WhisperOutput.GenerateSubtitle: requires `NonNegative(segs)`, for the same reason: the recogniser never yields negative times, and `format_time` is only modelled on non-negative input.
- Decimal.NatToString: models `str(n)` for every natural number. CPython (3.11 on, and the 3.7.14, 3.8.14, 3.9.14 and 3.10.7 backports) by default refuses decimal conversion of integers longer than 4300 digits, so `f"{subtitle['index']}"` (auto_translate.py:42) raises `ValueError` for such an index, and the model has no such failure.
- Decimal.DigitsToNat: models `int()` on every digit run. `int(match.group(1))` (auto_translate.py:25) raises `ValueError` on a run longer than 4300 digits under the same default limit, so `Srt.Parse` and `Srt.ParseSerialize` succeed on indices the program rejects.
- Srt.Parse: reads a string of already decoded characters. Both scripts open files in text mode (auto_translate.py:17 and 39, auto_whisper.py:73): reading turns `\r\n` and `\r` into `\n`, and writing turns `\n` into the platform's line separator (`\r\n` on Windows, where the script's target path lies, auto_translate.py:129). The contracts speak about these strings, not about the bytes on disk.
- BatchTranslate.AlignedEchoFileIsIdentity: "gives the same file" holds of the decoded content string. On Windows the bytes written carry `\r\n` line ends, so the bytes match only after newline translation.
- BatchTranslate.TranslateText: a raising call is `None`, and the run stops with `TranslatorFailed` at that step. Which exception surfaces is not modelled: when the joined window text is empty (a one-record window whose stripped text is empty), the handler's `texts[0]` (auto_translate.py:71) raises `IndexError` in place of the call's exception.
- Decimal.DigitRun: models `\d` as ASCII digits. Python's `\d` and `int()` also accept other Unicode decimal digits.
- Srt.Parse: emulates the one regular expression of `load_from_srt` as a left-to-right scan. General regular-expression semantics are not modelled.
- Srt.ParseSerialize: requires `NoIndexLine` on every text, which is stronger than "no `\n<digits>\n` inside the text". A text ending in `\n<digits>` is cut when read back (`Srt.TrailingNumberLineIsCut`).
- BatchTranslate.TranslateSrt: batch and context sizes are natural numbers. Negative sizes, with their negative `range` steps and negative slice bounds, are not modelled.
- WhisperOutput.TranscriptReadsBack: requires every time below 100 hours. Longer times are written with three or more hour digits, which the reader rejects (`Timecode.LongDurationOutgrowsTimestamp`).
- The Python dict versus attribute access in `merge_segments_by_time` (segments are objects, merged captions are dicts) is a representation detail. Both are the `Segment` datatype.

## Findings

| source | as written | input that shows it | evidently intended | confidence | as-written member | corrected member |
|---|---|---|---|---|---|---|
| auto_translate.py:90 | the kept slice of every reply starts at `context_size`, including at `i = 0`, where the window has no leading context | records `a b c d`, `batch_size=2`, `context_size=1`, a translator that echoes: the texts come out `b c c d`. With the defaults (10, 2), any file of 1 to 11 records in which no text holds a blank line and none but the last ends in a newline raises `IndexError` at the first step under an exact-length translator | slice from the batch's own offset in its window, `i - start_idx` | not executed | BatchTranslate.ExactRunFailsIff, BatchTranslate.EchoShiftsFirstBatch | BatchTranslate.AlignedExactGetsThrough, BatchTranslate.AlignedEchoIsIdentity |

=== FILE: batch_translate.dfy ===
/** The batch loop of `translate_srt`. Records are translated
    `batchSize` (`b`) at a time. Each batch is sent together with up to
    `contextSize` (`c`) neighbouring records on either side, and the
    translated texts are written back into the original records.

    The chat completion call is a parameter: a `Reply` maps the joined
    texts and the sentence count to the reply's content, or to `None`
    when the call raises. */
module BatchTranslate {
  import opened Outcomes
  import opened PyText
  import opened Srt

  /** Why a run stops.
      - `ZeroStep`: `range` refuses a zero step (a `ValueError`).
      - `TranslatorFailed`: the chat completion call raised.
      - `IndexOutOfRange`: the kept slice of the reply is shorter than
        the batch, so `translated_current[j]` raises.
      `step` is the offset `i` of the failing step. */
  datatype Failure = ZeroStep | TranslatorFailed(step: nat) | IndexOutOfRange(step: nat)

  /** The chat completion call: the reply's content, or `None` when it raises. */
  type Reply = (string, nat) -> Option<string>

  /** What one pass of the loop body yields at a given offset. */
  type Body = nat -> Result<seq<Subtitle>, Failure>

  /** The window offset that the kept slice starts at.
      - `AsWritten`: the code's fixed `contextSize`.
      - `Aligned`: the batch's own position inside its window. */
  datatype Slicing = AsWritten | Aligned

  function Min(a: int, b: int): int {
    if a <= b then a else b
  }

  function Max(a: int, b: int): int {
    if a <= b then b else a
  }

  /** The fields a translation must not touch. */
  predicate SameHeader(x: Subtitle, y: Subtitle) {
    x.index == y.index && x.startTime == y.startTime && x.endTime == y.endTime
  }

  /** The texts of a list of records, in order. */
  function Texts(subs: seq<Subtitle>): (ts: seq<string>)
    ensures |ts| == |subs|
    ensures forall k {:trigger ts[k]} :: 0 <= k < |subs| ==> ts[k] == subs[k].text
  {
    if |subs| == 0 then [] else [subs[0].text] + Texts(subs[1..])
  }

  /** Python's `s[a:b]` for non-negative bounds. Both bounds are clamped
      to the length, and crossed bounds give the empty slice. */
  function PySlice<T>(s: seq<T>, a: nat, b: nat): (r: seq<T>)
    ensures |r| == Max(Min(b, |s|) - Min(a, |s|), 0)
  {
    var lo := Min(a, |s|);
    s[lo..Max(lo, Min(b, |s|))]
  }

  /** Entry `k` of the slice `s[a:b]` is entry `a + k` of `s`. */
  lemma {:induction false} PySliceAt<T>(s: seq<T>, a: nat, b: nat, k: nat)
    requires k < |PySlice(s, a, b)|
    ensures a + k < |s| && PySlice(s, a, b)[k] == s[a + k]
  {
  }

  // ---------------------------------------------------------------------
  // The loop

  /** `for i in range(i, n, b)`: run the body at each offset in turn. The
      first failure ends the run; otherwise the outputs are
      concatenated in order. */
  function Loop(n: nat, i: nat, b: nat, body: Body): Result<seq<Subtitle>, Failure>
    requires b >= 1
    decreases n - i
  {
    if i >= n then Ok([])
    else
      match body(i)
      case Err(e) => Err(e)
      case Ok(out) =>
        match Loop(n, i + b, b, body)
        case Err(e) => Err(e)
        case Ok(rest) => Ok(out + rest)
  }

  /** Where `subtitles[i:i + batch_size]` ends. */
  function ChunkEnd(i: nat, b: nat, n: nat): nat {
    if i + b <= n then i + b else n
  }

  /** The body at `k` behaves: when it gets through it returns one record
      per record of the batch `subs[k..ChunkEnd(k, b, |subs|)]`, with that
      record's header, and when it fails it names `k`. */
  ghost predicate BodyKeeps(subs: seq<Subtitle>, b: nat, body: Body, k: nat) {
    && (body(k).Ok? ==>
          && |body(k).value| == ChunkEnd(k, b, |subs|) - k
          && forall j :: 0 <= j < |body(k).value| ==> k + j < |subs| && SameHeader(body(k).value[j], subs[k + j]))
    && (body(k).Err? ==> body(k).error == TranslatorFailed(k) || body(k).error == IndexOutOfRange(k))
  }

  /** A run from `i` is the body at `i` followed by the run from `i + b`;
      a failing body at `i` is the run's failure. */
  lemma {:induction false} LoopUnfold(n: nat, i: nat, b: nat, body: Body)
    requires b >= 1 && i < n
    ensures Loop(n, i, b, body).Ok? <==> body(i).Ok? && Loop(n, i + b, b, body).Ok?
    ensures Loop(n, i, b, body).Ok? ==> Loop(n, i, b, body).value == body(i).value + Loop(n, i + b, b, body).value
    ensures body(i).Err? ==> Loop(n, i, b, body) == Err(body(i).error)
  {
  }

  /** A run that starts past the end does nothing. */
  lemma {:induction false} LoopDone(n: nat, i: nat, b: nat, body: Body)
    requires b >= 1 && i >= n
    ensures Loop(n, i, b, body) == Ok([])
  {
  }

  /** A body at `i` that gets through, followed by a run from `i + b`
      that gets through, makes a run from `i` that gets through. */
  lemma {:induction false} LoopConcat(n: nat, i: nat, b: nat, body: Body, first: seq<Subtitle>, rest: seq<Subtitle>)
    requires b >= 1 && i < n
    requires body(i) == Ok(first) && Loop(n, i + b, b, body) == Ok(rest)
    ensures Loop(n, i, b, body) == Ok(first + rest)
  {
  }

  /** When every body behaves, a run that gets through returns one
      record per remaining input record, with that record's header, and
      a run that fails names one of its step offsets `i + q * b`. */
  lemma {:induction false} LoopKeeps(subs: seq<Subtitle>, i: nat, b: nat, body: Body)
    requires b >= 1
    requires forall k :: i <= k < |subs| ==> BodyKeeps(subs, b, body, k)
    ensures var r := Loop(|subs|, i, b, body);
      && (r.Ok? ==> |r.value| == |subs| - Min(i, |subs|))
      && (r.Ok? ==> forall k :: 0 <= k < |r.value| ==> SameHeader(r.value[k], subs[i + k]))
      && (r.Err? ==> !r.error.ZeroStep? && i <= r.error.step < |subs| && (r.error.step - i) % b == 0)
    decreases |subs| - i
  {
    if i < |subs| {
      assert BodyKeeps(subs, b, body, i);
      LoopUnfold(|subs|, i, b, body);
      LoopKeeps(subs, i + b, b, body);
      var r := Loop(|subs|, i, b, body);
      if r.Err? && body(i).Ok? {
        ModShift(r.error.step - i - b, b);
      }
      if r.Ok? {
        var first := body(i).value;
        var rest := Loop(|subs|, i + b, b, body).value;
        forall k | |first| <= k < |r.value|
          ensures SameHeader(r.value[k], subs[i + k])
        {
          assert r.value[k] == rest[k - |first|];
          assert i + k == (i + b) + (k - |first|);
        }
      }
    }
  }

  /** A positive multiple of `b` is at least `b`. */
  lemma {:induction false} MulAtLeast(d: nat, b: nat)
    requires d >= 1
    ensures d * b >= b
  {
    var e: nat := d - 1;
    assert d * b == e * b + b;
    assert e * b >= 0;
  }

  /** The remainder by `b` is the only `r` in `[0, b)` that leaves a
      multiple of `b`. */
  lemma {:induction false} ModUnique(x: int, b: int, q: int, r: int)
    requires b >= 1 && x == q * b + r && 0 <= r < b
    ensures x % b == r
  {
    var q0, r0 := x / b, x % b;
    assert x == q0 * b + r0;
    var d := q - q0;
    assert q * b == q0 * b + d * b;
    assert d * b == r0 - r;
    if d >= 1 {
      MulAtLeast(d, b);
    } else if d <= -1 {
      MulAtLeast(-d, b);
    }
  }

  /** Adding the divisor leaves a remainder unchanged. */
  lemma {:induction false} ModShift(x: int, b: int)
    requires b >= 1
    ensures (x + b) % b == x % b
  {
    var q := x / b;
    assert x == q * b + x % b;
    assert x + b == (q + 1) * b + x % b;
    ModUnique(x + b, b, q + 1, x % b);
  }

  /** When every body from `i` on gets through, so does the run. */
  lemma {:induction false} LoopGetsThrough(n: nat, i: nat, b: nat, body: Body)
    requires b >= 1
    requires forall k :: i <= k < n ==> body(k).Ok?
    ensures Loop(n, i, b, body).Ok?
    decreases n - i
  {
    if i < n {
      LoopGetsThrough(n, i + b, b, body);
    }
  }

  /** In a run from `i0` that gets through, the records from the step
      offset `i = i0 + q * b` on are that step's output. */
  lemma {:induction false} LoopAt(subs: seq<Subtitle>, i0: nat, b: nat, body: Body, q: nat, i: nat)
    requires b >= 1 && i == i0 + q * b && i < |subs|
    requires forall k :: i0 <= k < |subs| ==> BodyKeeps(subs, b, body, k)
    requires Loop(|subs|, i0, b, body).Ok?
    ensures var out := Loop(|subs|, i0, b, body).value;
      && body(i).Ok?
      && i - i0 + |body(i).value| <= |out|
      && out[i - i0..i - i0 + |body(i).value|] == body(i).value
    decreases q
  {
    LoopUnfold(|subs|, i0, b, body);
    if q > 0 {
      assert BodyKeeps(subs, b, body, i0);
      var first := body(i0).value;
      var rest := Loop(|subs|, i0 + b, b, body).value;
      assert i == (i0 + b) + (q - 1) * b;
      LoopAt(subs, i0 + b, b, body, q - 1, i);
      assert |first| == b;
      var step := body(i).value;
      SliceAfterPrefix(first, rest, i - i0, |step|);
    }
  }

  /** A slice lying past the prefix `a` of `a + r` is a slice of `r`. */
  lemma {:induction false} SliceAfterPrefix<T>(a: seq<T>, r: seq<T>, lo: nat, len: nat)
    requires |a| <= lo && lo + len <= |a| + |r|
    ensures (a + r)[lo..lo + len] == r[lo - |a|..lo - |a| + len]
  {
    var x, y := (a + r)[lo..lo + len], r[lo - |a|..lo - |a| + len];
    forall k | 0 <= k < |x|
      ensures x[k] == y[k]
    {
      assert (a + r)[lo + k] == r[lo + k - |a|];
    }
  }

  /** In a run from 0 that gets through, record `i + j` is record `j`
      of the step at offset `i = q * b`. */
  lemma {:induction false} LoopRecordAt(subs: seq<Subtitle>, b: nat, body: Body, q: nat, i: nat, j: nat)
    requires b >= 1 && i == q * b && j < b && i + j < |subs|
    requires forall k :: 0 <= k < |subs| ==> BodyKeeps(subs, b, body, k)
    requires Loop(|subs|, 0, b, body).Ok?
    ensures var out := Loop(|subs|, 0, b, body).value;
      && body(i).Ok? && j < |body(i).value|
      && i + j < |out| && out[i + j] == body(i).value[j]
  {
    var out := Loop(|subs|, 0, b, body).value;
    LoopAt(subs, 0, b, body, q, i);
    assert BodyKeeps(subs, b, body, i);
    var step := body(i).value;
    assert out[i..i + |step|] == step;
    assert out[i + j] == out[i..i + |step|][j];
  }

  // ---------------------------------------------------------------------
  // The loop body

  /** `start_idx = max(i - context_size, 0)`. */
  function WindowStart(i: nat, c: nat): nat {
    if i >= c then i - c else 0
  }

  /** `end_idx = min(i + batch_size + context_size, len(subtitles))`. */
  function WindowEnd(i: nat, b: nat, c: nat, n: nat): nat {
    if i + b + c <= n then i + b + c else n
  }

  /** The texts of the records sent at step `i`, those of
      `subtitles[start_idx:end_idx]`. */
  function WindowTexts(subs: seq<Subtitle>, i: nat, b: nat, c: nat): seq<string>
    requires i < |subs|
  {
    Texts(subs)[WindowStart(i, c)..WindowEnd(i, b, c, |subs|)]
  }

  /** The records the step at `i` writes: `subtitles[i:i + batch_size]`. */
  function Chunk(subs: seq<Subtitle>, i: nat, b: nat): seq<Subtitle>
    requires i < |subs|
  {
    subs[i..ChunkEnd(i, b, |subs|)]
  }

  /** `translate_text`: the reply cut at blank lines. It raises when
      the call raises, and otherwise has at least one piece. */
  function TranslateText(api: Reply, texts: string, length: nat): (r: Option<seq<string>>)
    ensures r.Some? <==> api(texts, length).Some?
    ensures r.Some? ==> |r.value| >= 1
  {
    match api(texts, length)
    case None => None
    case Some(content) => Some(SplitParagraphs(content))
  }

  /** The pieces of a reply join back into the reply. */
  lemma {:induction false} TranslateTextJoins(api: Reply, texts: string, length: nat)
    requires api(texts, length).Some?
    ensures JoinParagraphs(TranslateText(api, texts, length).value) == api(texts, length).value
  {
    JoinSplit(api(texts, length).value);
  }

  /** The translated window at step `i`: its texts joined at blank lines,
      sent with the window's length, and the reply split again. */
  function Ask(subs: seq<Subtitle>, api: Reply, i: nat, b: nat, c: nat): Option<seq<string>>
    requires i < |subs|
  {
    var texts := WindowTexts(subs, i, b, c);
    TranslateText(api, JoinParagraphs(texts), |texts|)
  }

  /** The offset of `translated_current` inside the reply. */
  function KeepFrom(slicing: Slicing, i: nat, c: nat): nat {
    match slicing
    case AsWritten => c
    case Aligned => i - WindowStart(i, c)
  }

  /** The inner loop: record `j` of the chunk gets text `j` of the kept
      slice, and the loop raises on the first `j` the slice lacks. So it
      raises exactly when the slice is shorter than the chunk. */
  function Fill(chunk: seq<Subtitle>, current: seq<string>, i: nat): (r: Result<seq<Subtitle>, Failure>)
    ensures r.Err? <==> |current| < |chunk|
    ensures r.Err? ==> r.error == IndexOutOfRange(i)
    ensures r.Ok? ==> |r.value| == |chunk|
  {
    if |chunk| == 0 then Ok([])
    else if |current| == 0 then Err(IndexOutOfRange(i))
    else
      match Fill(chunk[1..], current[1..], i)
      case Err(e) => Err(e)
      case Ok(rest) => Ok([chunk[0].(text := current[0])] + rest)
  }

  /** The inner loop keeps every header of the chunk and writes text `j`
      of the kept slice into record `j`. */
  lemma {:induction false} FillKeepsHeaders(chunk: seq<Subtitle>, current: seq<string>, i: nat)
    requires Fill(chunk, current, i).Ok?
    ensures forall j :: 0 <= j < |chunk| ==>
      SameHeader(Fill(chunk, current, i).value[j], chunk[j]) && Fill(chunk, current, i).value[j].text == current[j]
    decreases |chunk|
  {
    if |chunk| > 0 {
      FillKeepsHeaders(chunk[1..], current[1..], i);
      var out := Fill(chunk, current, i).value;
      var rest := Fill(chunk[1..], current[1..], i).value;
      assert out == [chunk[0].(text := current[0])] + rest;
      forall j | 1 <= j < |chunk|
        ensures SameHeader(out[j], chunk[j]) && out[j].text == current[j]
      {
        assert out[j] == rest[j - 1];
      }
    }
  }

  /** One pass of the loop body at offset `i`, given the translated
      window: fail if the call raised, otherwise write the kept slice
      from offset `o` into the batch. */
  function Step(subs: seq<Subtitle>, i: nat, b: nat, o: nat, reply: Option<seq<string>>)
    : Result<seq<Subtitle>, Failure>
    requires i < |subs|
  {
    match reply
    case None => Err(TranslatorFailed(i))
    case Some(r) => Fill(Chunk(subs, i, b), PySlice(r, o, o + b), i)
  }

  /** A step that gets through writes one record per record of its
      batch, with that record's header and text `j` of the kept slice;
      a step that fails names its offset. */
  lemma {:induction false} StepKeeps(subs: seq<Subtitle>, i: nat, b: nat, o: nat, reply: Option<seq<string>>)
    requires i < |subs|
    ensures var r := Step(subs, i, b, o, reply);
      && (r.Ok? ==> |r.value| == ChunkEnd(i, b, |subs|) - i)
      && (r.Ok? ==> forall j :: 0 <= j < |r.value| ==>
            i + j < |subs| && SameHeader(r.value[j], subs[i + j])
            && o + j < |reply.value| && r.value[j].text == reply.value[o + j])
      && (r.Err? ==> r.error == TranslatorFailed(i) || r.error == IndexOutOfRange(i))
  {
    var r := Step(subs, i, b, o, reply);
    if r.Ok? {
      var current := PySlice(reply.value, o, o + b);
      FillKeepsHeaders(Chunk(subs, i, b), current, i);
      forall j | 0 <= j < |r.value|
        ensures o + j < |reply.value| && r.value[j].text == reply.value[o + j]
      {
        PySliceAt(reply.value, o, o + b, j);
      }
    }
  }

  /** The loop body of `translate_srt` at every offset. */
  function BodyOf(subs: seq<Subtitle>, api: Reply, b: nat, c: nat, slicing: Slicing): Body {
    (i: nat) => if i < |subs| then Step(subs, i, b, KeepFrom(slicing, i, c), Ask(subs, api, i, b, c)) else Ok([])
  }

  /** At an offset inside the file the loop body is the step there. */
  lemma {:induction false} BodyAt(subs: seq<Subtitle>, api: Reply, b: nat, c: nat, slicing: Slicing, i: nat)
    requires i < |subs|
    ensures BodyOf(subs, api, b, c, slicing)(i) == Step(subs, i, b, KeepFrom(slicing, i, c), Ask(subs, api, i, b, c))
  {
  }

  /** Every pass of the loop body behaves. */
  lemma {:induction false} BodyKeepsEverywhere(subs: seq<Subtitle>, api: Reply, b: nat, c: nat, slicing: Slicing)
    ensures forall k :: 0 <= k < |subs| ==> BodyKeeps(subs, b, BodyOf(subs, api, b, c, slicing), k)
  {
    forall k | 0 <= k < |subs|
      ensures BodyKeeps(subs, b, BodyOf(subs, api, b, c, slicing), k)
    {
      StepKeeps(subs, k, b, KeepFrom(slicing, k, c), Ask(subs, api, k, b, c));
    }
  }

  /** `translate_srt` between loading and saving. A zero batch size is
      refused; otherwise the offsets `0, b, 2b, ...` are run in order. */
  function TranslateSrt(subs: seq<Subtitle>, api: Reply, b: nat, c: nat, slicing: Slicing)
    : (r: Result<seq<Subtitle>, Failure>)
    ensures b == 0 <==> r == Err(ZeroStep)
  {
    if b == 0 then Err(ZeroStep)
    else
      BodyKeepsEverywhere(subs, api, b, c, slicing);
      LoopKeeps(subs, 0, b, BodyOf(subs, api, b, c, slicing));
      Loop(|subs|, 0, b, BodyOf(subs, api, b, c, slicing))
  }

  /** `translate_srt` from file content to file content: read the
      records, translate them, write them back. */
  function TranslateFile(content: string, api: Reply, b: nat, c: nat, slicing: Slicing): (r: Result<string, Failure>)
    ensures b == 0 <==> r == Err(ZeroStep)
  {
    match TranslateSrt(Parse(content), api, b, c, slicing)
    case Err(e) => Err(e)
    case Ok(out) => Ok(Serialize(out))
  }

  /** `translate_srt` keeps the number, order, indices and timestamps of
      the records, and a failure names one of its step offsets. */
  lemma {:induction false} TranslateKeepsHeaders(subs: seq<Subtitle>, api: Reply, b: nat, c: nat, slicing: Slicing)
    ensures var r := TranslateSrt(subs, api, b, c, slicing);
      && (r.Ok? ==> |r.value| == |subs| && forall k :: 0 <= k < |subs| ==> SameHeader(r.value[k], subs[k]))
      && (r.Err? && b >= 1 ==> r.error.step < |subs| && r.error.step % b == 0)
  {
    if b >= 1 {
      var body := BodyOf(subs, api, b, c, slicing);
      BodyKeepsEverywhere(subs, api, b, c, slicing);
      LoopKeeps(subs, 0, b, body);
      var r := Loop(|subs|, 0, b, body);
      assert TranslateSrt(subs, api, b, c, slicing) == r;
      if r.Ok? {
        assert |r.value| == |subs| by {
          assert Min(0, |subs|) == 0;
        }
        forall k | 0 <= k < |subs|
          ensures SameHeader(r.value[k], subs[k])
        {
          assert subs[0 + k] == subs[k];
        }
      }
    }
  }

  /** For any translator: output record `i + j` of a run that gets
      through carries entry `KeepFrom(slicing, i, c) + j` of the reply to
      the window sent at step `i`. */
  lemma {:induction false} RunTextAt(subs: seq<Subtitle>, api: Reply, b: nat, c: nat, slicing: Slicing, q: nat, i: nat, j: nat)
    requires b >= 1 && i == q * b && j < b && i + j < |subs|
    requires TranslateSrt(subs, api, b, c, slicing).Ok?
    ensures var reply, o := Ask(subs, api, i, b, c), KeepFrom(slicing, i, c);
      && reply.Some? && o + j < |reply.value|
      && i + j < |TranslateSrt(subs, api, b, c, slicing).value|
      && TranslateSrt(subs, api, b, c, slicing).value[i + j].text == reply.value[o + j]
  {
    BodyKeepsEverywhere(subs, api, b, c, slicing);
    LoopRecordAt(subs, b, BodyOf(subs, api, b, c, slicing), q, i, j);
    BodyAt(subs, api, b, c, slicing, i);
    StepKeeps(subs, i, b, KeepFrom(slicing, i, c), Ask(subs, api, i, b, c));
  }

  // ---------------------------------------------------------------------
  // The windows and the batches

  /** The window around the batch at `i` (with `i < n`) is every record
      at most `c` places before the batch or after its end. It holds
      record `i` and the whole batch, and never more than `b + 2c`
      records. */
  lemma {:induction false} WindowShape(i: nat, b: nat, c: nat, n: nat)
    requires i < n && b >= 1
    ensures var lo, hi := WindowStart(i, c), WindowEnd(i, b, c, n);
      && lo <= i < ChunkEnd(i, b, n) <= hi <= n
      && hi - lo <= b + 2 * c
      && i <= lo + c && (lo == 0 || lo + c == i)
      && hi <= i + b + c && (hi == n || hi == i + b + c)
  {
  }

  /** `subtitles[i:i + b]` for every `i` in `range(i0, N, b)`. */
  function Batches(subs: seq<Subtitle>, i: nat, b: nat): (bs: seq<seq<Subtitle>>)
    requires b >= 1
    ensures forall k :: 0 <= k < |bs| ==> 1 <= |bs[k]| <= b
    decreases |subs| - i
  {
    if i >= |subs| then [] else [subs[i..ChunkEnd(i, b, |subs|)]] + Batches(subs, i + b, b)
  }

  function Concat(bs: seq<seq<Subtitle>>): seq<Subtitle> {
    if |bs| == 0 then [] else bs[0] + Concat(bs[1..])
  }

  /** The batches cover the records exactly once and in order, and all
      but the last are full. */
  lemma {:induction false} BatchesPartition(subs: seq<Subtitle>, i: nat, b: nat)
    requires b >= 1 && i <= |subs|
    ensures Concat(Batches(subs, i, b)) == subs[i..]
    ensures forall k :: 0 <= k < |Batches(subs, i, b)| - 1 ==> |Batches(subs, i, b)[k]| == b
    decreases |subs| - i
  {
    if i < |subs| {
      var e := ChunkEnd(i, b, |subs|);
      var bs, rest := Batches(subs, i, b), Batches(subs, i + b, b);
      assert bs == [subs[i..e]] + rest;
      assert bs[1..] == rest;
      assert Concat(bs) == subs[i..e] + Concat(rest);
      if i + b <= |subs| {
        BatchesPartition(subs, i + b, b);
        assert subs[i..] == subs[i..e] + subs[i + b..];
        forall k | 1 <= k < |bs| - 1
          ensures |bs[k]| == b
        {
          assert bs[k] == rest[k - 1];
        }
      } else {
        assert rest == [];
        assert subs[i..] == subs[i..e] + [];
      }
    }
  }

  /** Batch `k` is the batch the loop writes at its `k`-th step, the one
      at offset `i + k * b`. */
  lemma {:induction false} BatchesAt(subs: seq<Subtitle>, i: nat, b: nat, k: nat)
    requires b >= 1 && k < |Batches(subs, i, b)|
    ensures i + k * b < |subs| && Batches(subs, i, b)[k] == Chunk(subs, i + k * b, b)
    decreases k
  {
    assert i < |subs|;
    if k > 0 {
      var rest := Batches(subs, i + b, b);
      assert Batches(subs, i, b)[k] == rest[k - 1];
      BatchesAt(subs, i + b, b, k - 1);
      assert i + b + (k - 1) * b == i + k * b;
    }
  }

  /** Every step offset `i + k * b` inside the file has its batch: with
      `BatchesAt`, batch `k` exists exactly when that offset is below the
      length. */
  lemma {:induction false} BatchesCover(subs: seq<Subtitle>, i: nat, b: nat, k: nat)
    requires b >= 1 && i + k * b < |subs|
    ensures k < |Batches(subs, i, b)|
    decreases k
  {
    if k > 0 {
      assert i + b + (k - 1) * b == i + k * b;
      BatchesCover(subs, i + b, b, k - 1);
      assert |Batches(subs, i, b)| == 1 + |Batches(subs, i + b, b)|;
    }
  }

  // ---------------------------------------------------------------------
  // A translator that keeps the paragraph count

  /** Sent a list of texts that splits back into itself, the translator
      answers with as many paragraphs as it was sent. */
  predicate KeepsCount(api: Reply, xs: seq<string>) {
    |xs| >= 1 && Splittable(xs) ==>
      api(JoinParagraphs(xs), |xs|).Some? && |SplitParagraphs(api(JoinParagraphs(xs), |xs|).value)| == |xs|
  }

  /** A translator that keeps the paragraph count of every list it can. */
  ghost predicate ExactLength(api: Reply) {
    forall xs: seq<string> :: KeepsCount(api, xs)
  }

  /** The translator that sends every text back unchanged. */
  function Echo(texts: string, length: nat): Option<string> {
    Some(texts)
  }

  lemma {:induction false} EchoIsExact()
    ensures ExactLength(Echo)
  {
    forall xs: seq<string>
      ensures KeepsCount(Echo, xs)
    {
      if |xs| >= 1 && Splittable(xs) {
        SplitJoin(xs);
      }
    }
  }

  lemma {:induction false} SplittableSlice(xs: seq<string>, lo: nat, hi: nat)
    requires lo <= hi <= |xs| && Splittable(xs)
    ensures Splittable(xs[lo..hi])
  {
    forall k | 0 <= k < hi - lo
      ensures NoBlankLine(xs[lo..hi][k]) && (k + 1 < hi - lo ==> !EndsWithNewline(xs[lo..hi][k]))
    {
      assert xs[lo..hi][k] == xs[lo + k];
    }
  }

  /** The texts sent at step `i` split back into the window's texts. */
  lemma {:induction false} WindowSplittable(subs: seq<Subtitle>, i: nat, b: nat, c: nat)
    requires Splittable(Texts(subs)) && i < |subs| && b >= 1
    ensures |WindowTexts(subs, i, b, c)| >= 1 && Splittable(WindowTexts(subs, i, b, c))
  {
    SplittableSlice(Texts(subs), WindowStart(i, c), WindowEnd(i, b, c, |subs|));
  }

  /** Text `k` sent at step `i` is the text of record `start_idx + k`. */
  lemma {:induction false} WindowTextAt(subs: seq<Subtitle>, i: nat, b: nat, c: nat, k: nat)
    requires i < |subs| && k < |WindowTexts(subs, i, b, c)|
    ensures WindowStart(i, c) + k < |subs| && WindowTexts(subs, i, b, c)[k] == subs[WindowStart(i, c) + k].text
  {
  }

  /** With an exact-length translator the reply at step `i` has one
      paragraph per window record. */
  lemma {:induction false} ExactAsk(subs: seq<Subtitle>, api: Reply, i: nat, b: nat, c: nat)
    requires ExactLength(api) && Splittable(Texts(subs)) && i < |subs| && b >= 1
    ensures Ask(subs, api, i, b, c).Some?
    ensures |Ask(subs, api, i, b, c).value| == WindowEnd(i, b, c, |subs|) - WindowStart(i, c)
  {
    WindowSplittable(subs, i, b, c);
    assert KeepsCount(api, WindowTexts(subs, i, b, c));
  }

  /** With the echo translator the reply at step `i` is the window's
      texts. */
  lemma {:induction false} EchoAsk(subs: seq<Subtitle>, i: nat, b: nat, c: nat)
    requires Splittable(Texts(subs)) && i < |subs| && b >= 1
    ensures Ask(subs, Echo, i, b, c) == Some(WindowTexts(subs, i, b, c))
  {
    WindowSplittable(subs, i, b, c);
    SplitJoin(WindowTexts(subs, i, b, c));
  }

  /** With the echo translator the loop body at `i` writes the window's
      own texts into the batch. */
  lemma {:induction false} EchoBodyAt(subs: seq<Subtitle>, i: nat, b: nat, c: nat, slicing: Slicing)
    requires Splittable(Texts(subs)) && i < |subs| && b >= 1
    ensures BodyOf(subs, Echo, b, c, slicing)(i) == Step(subs, i, b, KeepFrom(slicing, i, c), Some(WindowTexts(subs, i, b, c)))
  {
    BodyAt(subs, Echo, b, c, slicing, i);
    EchoAsk(subs, i, b, c);
  }

  /** As written, the kept slice falls short of the batch exactly when
      the batch starts inside the first `c` records and the file is
      shorter than `b + c`. */
  lemma {:induction false} AsWrittenShortIff(i: nat, b: nat, c: nat, n: nat)
    requires i < n && b >= 1
    ensures var w := WindowEnd(i, b, c, n) - WindowStart(i, c);
      Max(Min(c + b, w) - Min(c, w), 0) < ChunkEnd(i, b, n) - i <==> i < c && n < b + c
  {
  }

  /** Aligned, the kept slice always covers the batch. */
  lemma {:induction false} AlignedNeverShort(i: nat, b: nat, c: nat, n: nat)
    requires i < n
    ensures var lo := WindowStart(i, c);
      var w := WindowEnd(i, b, c, n) - lo;
      Max(Min(i - lo + b, w) - Min(i - lo, w), 0) >= ChunkEnd(i, b, n) - i
  {
  }

  /** When the reply has one paragraph per window record, the step fails
      exactly when it is sliced as written, starts inside the first `c`
      records, and the file is shorter than `b + c`. */
  lemma {:induction false} StepShortIff(subs: seq<Subtitle>, i: nat, b: nat, c: nat, slicing: Slicing, reply: Option<seq<string>>)
    requires i < |subs| && b >= 1
    requires reply.Some? && |reply.value| == WindowEnd(i, b, c, |subs|) - WindowStart(i, c)
    ensures Step(subs, i, b, KeepFrom(slicing, i, c), reply).Err? <==> slicing == AsWritten && i < c && |subs| < b + c
  {
    if slicing == AsWritten {
      AsWrittenShortIff(i, b, c, |subs|);
    } else {
      AlignedNeverShort(i, b, c, |subs|);
    }
  }

  /** With an exact-length translator a step fails exactly when it is
      sliced as written, starts inside the first `c` records, and the
      file is shorter than `b + c`. It then fails on the index. */
  lemma {:induction false} ExactStepFailsIff(subs: seq<Subtitle>, api: Reply, i: nat, b: nat, c: nat, slicing: Slicing)
    requires ExactLength(api) && Splittable(Texts(subs))
    requires i < |subs| && b >= 1
    ensures var r := BodyOf(subs, api, b, c, slicing)(i);
      && (r.Err? <==> slicing == AsWritten && i < c && |subs| < b + c)
      && (r.Err? ==> r.error == IndexOutOfRange(i))
  {
    var reply := Ask(subs, api, i, b, c);
    BodyAt(subs, api, b, c, slicing, i);
    ExactAsk(subs, api, i, b, c);
    StepShortIff(subs, i, b, c, slicing, reply);
    StepKeeps(subs, i, b, KeepFrom(slicing, i, c), reply);
  }

  /** When no step can fail, the run gets through. */
  lemma {:induction false} ExactRunGetsThrough(subs: seq<Subtitle>, api: Reply, b: nat, c: nat, slicing: Slicing)
    requires ExactLength(api) && Splittable(Texts(subs)) && b >= 1
    requires slicing == Aligned || c == 0 || b + c <= |subs|
    ensures TranslateSrt(subs, api, b, c, slicing).Ok?
  {
    ExactStepsGetThrough(subs, api, b, c, slicing);
    LoopGetsThrough(|subs|, 0, b, BodyOf(subs, api, b, c, slicing));
  }

  lemma {:induction false} ExactStepsGetThrough(subs: seq<Subtitle>, api: Reply, b: nat, c: nat, slicing: Slicing)
    requires ExactLength(api) && Splittable(Texts(subs)) && b >= 1
    requires slicing == Aligned || c == 0 || b + c <= |subs|
    ensures forall k :: 0 <= k < |subs| ==> BodyOf(subs, api, b, c, slicing)(k).Ok?
  {
    forall k | 0 <= k < |subs|
      ensures BodyOf(subs, api, b, c, slicing)(k).Ok?
    {
      ExactStepGetsThrough(subs, api, k, b, c, slicing);
    }
  }

  lemma {:induction false} ExactStepGetsThrough(subs: seq<Subtitle>, api: Reply, k: nat, b: nat, c: nat, slicing: Slicing)
    requires ExactLength(api) && Splittable(Texts(subs))
    requires k < |subs| && b >= 1
    requires slicing == Aligned || c == 0 || b + c <= |subs|
    ensures BodyOf(subs, api, b, c, slicing)(k).Ok?
  {
    ExactStepFailsIff(subs, api, k, b, c, slicing);
  }

  /** As written, with an exact-length translator, a run fails exactly
      when `c > 0` and the file has fewer than `b + c` records (but at
      least one). It then fails at the first step, on the index. With
      the default sizes that is every file of 1 to 11 records. */
  lemma {:induction false} ExactRunFailsIff(subs: seq<Subtitle>, api: Reply, b: nat, c: nat)
    requires ExactLength(api) && Splittable(Texts(subs)) && b >= 1
    ensures var r := TranslateSrt(subs, api, b, c, AsWritten);
      && (r.Err? <==> c > 0 && 1 <= |subs| < b + c)
      && (r.Err? ==> r.error == IndexOutOfRange(0))
  {
    if c > 0 && 1 <= |subs| < b + c {
      ExactStepFailsIff(subs, api, 0, b, c, AsWritten);
      LoopUnfold(|subs|, 0, b, BodyOf(subs, api, b, c, AsWritten));
    } else if |subs| > 0 {
      ExactRunGetsThrough(subs, api, b, c, AsWritten);
    }
  }

  /** The translator answers every step of the run with one reply piece
      per window record, whatever the texts hold. */
  predicate RepliesFit(subs: seq<Subtitle>, api: Reply, b: nat, c: nat) {
    forall i :: 0 <= i < |subs| ==>
      Ask(subs, api, i, b, c).Some? && |Ask(subs, api, i, b, c).value| == WindowEnd(i, b, c, |subs|) - WindowStart(i, c)
  }

  /** The run-level statement of `ExactRunFailsIff` for any texts: as
      written, when every reply has one piece per window record, a run
      fails exactly when `c > 0` and the file has 1 to `b + c - 1`
      records, and then at the first step, on the index. */
  lemma {:induction false} FittingRunFailsIff(subs: seq<Subtitle>, api: Reply, b: nat, c: nat)
    requires b >= 1 && RepliesFit(subs, api, b, c)
    ensures var r := TranslateSrt(subs, api, b, c, AsWritten);
      && (r.Err? <==> c > 0 && 1 <= |subs| < b + c)
      && (r.Err? ==> r.error == IndexOutOfRange(0))
  {
    var body := BodyOf(subs, api, b, c, AsWritten);
    if c > 0 && 1 <= |subs| < b + c {
      var reply := Ask(subs, api, 0, b, c);
      BodyAt(subs, api, b, c, AsWritten, 0);
      StepShortIff(subs, 0, b, c, AsWritten, reply);
      LoopUnfold(|subs|, 0, b, body);
    } else if |subs| > 0 {
      forall k | 0 <= k < |subs|
        ensures body(k).Ok?
      {
        BodyAt(subs, api, b, c, AsWritten, k);
        StepShortIff(subs, k, b, c, AsWritten, Ask(subs, api, k, b, c));
      }
      LoopGetsThrough(|subs|, 0, b, body);
    }
  }

  /** Aligned, an exact-length translator never makes a run fail. */
  lemma {:induction false} AlignedExactGetsThrough(subs: seq<Subtitle>, api: Reply, b: nat, c: nat)
    requires ExactLength(api) && Splittable(Texts(subs)) && b >= 1
    ensures TranslateSrt(subs, api, b, c, Aligned).Ok?
  {
    ExactRunGetsThrough(subs, api, b, c, Aligned);
  }

  // ---------------------------------------------------------------------
  // Which text each record receives

  /** With the echo translator, record `j` of the batch at `i` receives
      the text of window position `KeepFrom(slicing, i, c) + j`. */
  lemma {:induction false} EchoStepTexts(subs: seq<Subtitle>, i: nat, b: nat, c: nat, slicing: Slicing, j: nat)
    requires Splittable(Texts(subs)) && i < |subs| && b >= 1
    requires BodyOf(subs, Echo, b, c, slicing)(i).Ok?
    requires j < |BodyOf(subs, Echo, b, c, slicing)(i).value|
    ensures var p := WindowStart(i, c) + KeepFrom(slicing, i, c) + j;
      && p < |subs|
      && BodyOf(subs, Echo, b, c, slicing)(i).value[j].text == subs[p].text
  {
    var o := KeepFrom(slicing, i, c);
    var texts := WindowTexts(subs, i, b, c);
    var step := Step(subs, i, b, o, Some(texts));
    EchoBodyAt(subs, i, b, c, slicing);
    assert BodyOf(subs, Echo, b, c, slicing)(i) == step;
    StepKeeps(subs, i, b, o, Some(texts));
    assert step.value[j].text == texts[o + j];
    WindowTextAt(subs, i, b, c, o + j);
  }

  /** As written, with the echo translator, record `j` of the batch at
      `i = q * b` receives the text of record `max(i - c, 0) + c + j`:
      its own text only when `i >= c`. */
  lemma {:induction false} EchoRunTexts(subs: seq<Subtitle>, b: nat, c: nat, q: nat, i: nat, j: nat)
    requires Splittable(Texts(subs)) && b >= 1
    requires TranslateSrt(subs, Echo, b, c, AsWritten).Ok?
    requires i == q * b && j < b && i + j < |subs|
    ensures var out, p := TranslateSrt(subs, Echo, b, c, AsWritten).value, WindowStart(i, c) + c + j;
      i + j < |out| && p < |subs| && out[i + j].text == subs[p].text
  {
    BodyKeepsEverywhere(subs, Echo, b, c, AsWritten);
    LoopRecordAt(subs, b, BodyOf(subs, Echo, b, c, AsWritten), q, i, j);
    EchoStepTexts(subs, i, b, c, AsWritten, j);
  }

  /** Any four records in which no text holds a blank line and none but
      the last ends in a newline (`Splittable`), batches of 2 with 1
      record of context, translated by the echo translator: the first
      batch gets the texts of records 2 and 3 instead of its own. */
  lemma {:induction false} EchoShiftsFirstBatchOf(subs: seq<Subtitle>)
    requires |subs| == 4 && Splittable(Texts(subs))
    ensures var r := TranslateSrt(subs, Echo, 2, 1, AsWritten);
      r.Ok? && Texts(r.value) == [subs[1].text, subs[2].text, subs[2].text, subs[3].text]
  {
    EchoIsExact();
    ExactRunFailsIff(subs, Echo, 2, 1);
    TranslateKeepsHeaders(subs, Echo, 2, 1, AsWritten);
    var out := TranslateSrt(subs, Echo, 2, 1, AsWritten).value;
    EchoRunTexts(subs, 2, 1, 0, 0, 0);
    EchoRunTexts(subs, 2, 1, 0, 0, 1);
    EchoRunTexts(subs, 2, 1, 1, 2, 0);
    EchoRunTexts(subs, 2, 1, 1, 2, 1);
    assert Texts(out) == [out[0].text, out[1].text, out[2].text, out[3].text];
  }

  /** Four records `a b c d`, batches of 2 with 1 record of context,
      translated by the echo translator: the first batch gets `b c`
      instead of its own `a b`. */
  lemma {:induction false} EchoShiftsFirstBatch()
    ensures var subs := [Subtitle(1, "", "", "a"), Subtitle(2, "", "", "b"), Subtitle(3, "", "", "c"), Subtitle(4, "", "", "d")];
      var r := TranslateSrt(subs, Echo, 2, 1, AsWritten);
      r.Ok? && Texts(r.value) == ["b", "c", "c", "d"]
  {
    var subs := [Subtitle(1, "", "", "a"), Subtitle(2, "", "", "b"), Subtitle(3, "", "", "c"), Subtitle(4, "", "", "d")];
    assert Texts(subs) == ["a", "b", "c", "d"];
    assert Splittable(Texts(subs));
    EchoShiftsFirstBatchOf(subs);
  }

  /** With the default sizes (10 and 2), every file of 1 to 11 records
      in which no text holds a blank line and none but the last ends in a
      newline (`Splittable`) fails on the index at the first step
      under the echo translator. */
  lemma {:induction false} DefaultSizesFailOnShortFiles(subs: seq<Subtitle>)
    requires 1 <= |subs| < 12 && Splittable(Texts(subs))
    ensures TranslateSrt(subs, Echo, 10, 2, AsWritten) == Err(IndexOutOfRange(0))
  {
    EchoIsExact();
    ExactRunFailsIff(subs, Echo, 10, 2);
  }

  /** Sliced from the batch's own offset, a reply that is the window's
      own texts writes the batch back unchanged. */
  lemma {:induction false} WindowRepliedToItself(subs: seq<Subtitle>, i: nat, b: nat, c: nat)
    requires i < |subs| && b >= 1
    ensures Step(subs, i, b, i - WindowStart(i, c), Some(WindowTexts(subs, i, b, c))) == Ok(Chunk(subs, i, b))
  {
    var lo := WindowStart(i, c);
    var o := i - lo;
    var reply := Some(WindowTexts(subs, i, b, c));
    assert o == KeepFrom(Aligned, i, c);
    StepShortIff(subs, i, b, c, Aligned, reply);
    StepKeeps(subs, i, b, o, reply);
    var step := Step(subs, i, b, o, reply).value;
    var chunk := Chunk(subs, i, b);
    forall j | 0 <= j < |chunk|
      ensures step[j] == chunk[j]
    {
      WindowTextAt(subs, i, b, c, o + j);
    }
    assert step == chunk;
  }

  /** Aligned, the echo translator hands the batch at `i` back unchanged. */
  lemma {:induction false} AlignedEchoStep(subs: seq<Subtitle>, i: nat, b: nat, c: nat)
    requires Splittable(Texts(subs)) && i < |subs| && b >= 1
    ensures BodyOf(subs, Echo, b, c, Aligned)(i) == Ok(Chunk(subs, i, b))
  {
    EchoBodyAt(subs, i, b, c, Aligned);
    WindowRepliedToItself(subs, i, b, c);
  }

  /** A run whose every pass hands its batch back unchanged reproduces
      the records from `i` on. */
  lemma {:induction false} LoopIdentity(subs: seq<Subtitle>, i: nat, b: nat, body: Body)
    requires b >= 1 && i <= |subs|
    requires forall k :: i <= k < |subs| ==> body(k) == Ok(Chunk(subs, k, b))
    ensures Loop(|subs|, i, b, body) == Ok(subs[i..])
    decreases |subs| - i
  {
    if i < |subs| {
      var e := ChunkEnd(i, b, |subs|);
      var first, rest := subs[i..e], subs[e..];
      if i + b <= |subs| {
        LoopIdentity(subs, i + b, b, body);
      } else {
        LoopDone(|subs|, i + b, b, body);
        assert rest == [];
      }
      LoopConcat(|subs|, i, b, body, first, rest);
      assert first + rest == subs[i..];
    } else {
      LoopDone(|subs|, i, b, body);
    }
  }

  /** Aligned, the echo translator gives every record its own text. */
  lemma {:induction false} AlignedEchoFrom(subs: seq<Subtitle>, i: nat, b: nat, c: nat)
    requires Splittable(Texts(subs)) && b >= 1 && i <= |subs|
    ensures Loop(|subs|, i, b, BodyOf(subs, Echo, b, c, Aligned)) == Ok(subs[i..])
  {
    var body := BodyOf(subs, Echo, b, c, Aligned);
    forall k | i <= k < |subs|
      ensures body(k) == Ok(Chunk(subs, k, b))
    {
      AlignedEchoStep(subs, k, b, c);
    }
    LoopIdentity(subs, i, b, body);
  }

  /** Aligned, translating by echo changes nothing. */
  lemma {:induction false} AlignedEchoIsIdentity(subs: seq<Subtitle>, b: nat, c: nat)
    requires Splittable(Texts(subs)) && b >= 1
    ensures TranslateSrt(subs, Echo, b, c, Aligned) == Ok(subs)
  {
    AlignedEchoFrom(subs, 0, b, c);
  }

  /** Aligned, translating a written file by echo gives the same file
      back. */
  lemma {:induction false} AlignedEchoFileIsIdentity(subs: seq<Subtitle>, b: nat, c: nat)
    requires forall k :: 0 <= k < |subs| ==> WellFormed(subs[k])
    requires Splittable(Texts(subs)) && b >= 1
    ensures TranslateFile(Serialize(subs), Echo, b, c, Aligned) == Ok(Serialize(subs))
  {
    ParseSerialize(subs);
    AlignedEchoIsIdentity(subs, b, c);
  }
}

=== FILE: decimal.dfy ===
/** Decimal text of natural numbers: Python's `str(n)`, `int(digits)` and
    the zero-padded format spec `{n:0W}`. Only ASCII digits are modelled. */
module Decimal {

  predicate IsDigit(ch: char) {
    '0' <= ch <= '9'
  }

  predicate AllDigits(s: string) {
    forall i :: 0 <= i < |s| ==> IsDigit(s[i])
  }

  function DigitValue(ch: char): (d: nat)
    requires IsDigit(ch)
    ensures d < 10
  {
    (ch as int - '0' as int) as nat
  }

  function DigitChar(d: nat): (ch: char)
    requires d < 10
    ensures IsDigit(ch) && DigitValue(ch) == d
  {
    ('0' as int + d) as char
  }

  /** `int(s)` for a run of ASCII digits: Horner's rule from the left. */
  function DigitsToNat(s: string): nat
    requires AllDigits(s)
  {
    if |s| == 0 then 0 else DigitsToNat(s[..|s| - 1]) * 10 + DigitValue(s[|s| - 1])
  }

  /** `str(n)` for a natural number: its shortest decimal spelling. */
  function NatToString(n: nat): (s: string)
    ensures 1 <= |s| && AllDigits(s)
    ensures s[0] == '0' ==> n == 0
    decreases n
  {
    if n < 10 then [DigitChar(n)] else NatToString(n / 10) + [DigitChar(n % 10)]
  }

  /** `int` undoes `str`. */
  lemma {:induction false} NatToStringRoundTrip(n: nat)
    ensures DigitsToNat(NatToString(n)) == n
    decreases n
  {
    if n >= 10 {
      var s := NatToString(n);
      assert s[..|s| - 1] == NatToString(n / 10);
      NatToStringRoundTrip(n / 10);
    }
  }

  /** `str` undoes `int` exactly on canonical spellings (no leading zero
      unless the number is zero itself). */
  lemma {:induction false} DigitsRoundTrip(s: string)
    requires 1 <= |s| && AllDigits(s)
    requires s[0] == '0' ==> |s| == 1
    ensures NatToString(DigitsToNat(s)) == s
    decreases |s|
  {
    if |s| > 1 {
      var init := s[..|s| - 1];
      DigitsRoundTrip(init);
      LeadingDigitPositive(init);
      assert DigitsToNat(s) / 10 == DigitsToNat(init);
      assert DigitsToNat(s) % 10 == DigitValue(s[|s| - 1]);
      assert s == init + [s[|s| - 1]];
    }
  }

  lemma {:induction false} LeadingDigitPositive(s: string)
    requires 1 <= |s| && AllDigits(s) && s[0] != '0'
    ensures DigitsToNat(s) >= 1
    decreases |s|
  {
    if |s| > 1 {
      LeadingDigitPositive(s[..|s| - 1]);
    }
  }

  /** Fewer than 10^w means at most w digits (for the widths used). */
  lemma {:induction false} NatToStringShort(n: nat)
    ensures n < 10 ==> |NatToString(n)| == 1
    ensures n < 100 ==> |NatToString(n)| <= 2
    ensures n < 1000 ==> |NatToString(n)| <= 3
  {
    if n >= 10 {
      NatToStringShort(n / 10);
    }
  }

  function Zeros(k: nat): (z: string)
    ensures |z| == k && forall i :: 0 <= i < k ==> z[i] == '0'
  {
    if k == 0 then [] else Zeros(k - 1) + ['0']
  }

  /** Python's `f"{n:0W}"`: `str(n)` left-padded with zeros to at least
      `width` characters; never truncated. */
  function ZeroPad(n: nat, width: nat): (s: string)
    ensures AllDigits(s)
    ensures |s| == if width <= |NatToString(n)| then |NatToString(n)| else width
    ensures DigitsToNat(s) == n
  {
    var digits := NatToString(n);
    var pad := if width <= |digits| then 0 else width - |digits|;
    var s := Zeros(pad) + digits;
    LeadingZerosVanish(Zeros(pad), digits);
    NatToStringRoundTrip(n);
    s
  }

  lemma {:induction false} LeadingZerosVanish(z: string, s: string)
    requires forall i :: 0 <= i < |z| ==> z[i] == '0'
    requires AllDigits(s)
    ensures AllDigits(z + s)
    ensures DigitsToNat(z + s) == DigitsToNat(s)
    decreases |s|
  {
    if |s| == 0 {
      assert z + s == z;
      ZerosAreZero(z);
    } else {
      var last := s[|s| - 1];
      assert (z + s)[..|z + s| - 1] == z + s[..|s| - 1];
      LeadingZerosVanish(z, s[..|s| - 1]);
    }
  }

  lemma {:induction false} ZerosAreZero(z: string)
    requires forall i :: 0 <= i < |z| ==> z[i] == '0'
    ensures AllDigits(z) && DigitsToNat(z) == 0
    decreases |z|
  {
    if |z| > 0 {
      ZerosAreZero(z[..|z| - 1]);
    }
  }

  /** The length of the maximal run of digits at the start of `s`: what a
      greedy `\d+` consumes (zero when it does not match). */
  function DigitRun(s: string): (d: nat)
    ensures d <= |s|
    ensures AllDigits(s[..d])
    ensures d < |s| ==> !IsDigit(s[d])
  {
    if |s| == 0 || !IsDigit(s[0]) then 0 else 1 + DigitRun(s[1..])
  }

  /** The digit run of a concatenation: it crosses into the second part
      only when the first part is all digits. */
  lemma {:induction false} DigitRunAppend(a: string, b: string)
    ensures DigitRun(a + b) == if DigitRun(a) == |a| then |a| + DigitRun(b) else DigitRun(a)
    decreases |a|
  {
    if |a| > 0 {
      assert (a + b)[0] == a[0];
      assert (a + b)[1..] == a[1..] + b;
      DigitRunAppend(a[1..], b);
    } else {
      assert a + b == b;
    }
  }

  lemma {:induction false} DigitRunOfDigits(s: string)
    requires AllDigits(s)
    ensures DigitRun(s) == |s|
  {
    if |s| > 0 {
      DigitRunOfDigits(s[1..]);
    }
  }
}

=== FILE: outcomes.dfy ===
/** Failure-carrying wrappers shared by the model: a value that may be
    missing, and a value or the error that took its place (the scripts
    raise exceptions; the model returns them). */
module Outcomes {

  datatype Option<+T> = None | Some(value: T)

  datatype Result<+T, +E> = Ok(value: T) | Err(error: E)
}

=== FILE: pytext.dfy ===
/** The two pieces of Python string behaviour the scripts lean on:
    `str.strip()` with Python's whitespace set, and the "\n\n" join/split
    pair through which subtitle texts travel to the translator and back. */
module PyText {

  /** `str.isspace()` for one character: the Unicode whitespace set. */
  predicate IsSpace(ch: char) {
    || ('\U{9}' <= ch <= '\U{D}') || ('\U{1C}' <= ch <= '\U{20}')
    || ch == '\U{85}' || ch == '\U{A0}' || ch == '\U{1680}'
    || ('\U{2000}' <= ch <= '\U{200A}') || ch == '\U{2028}' || ch == '\U{2029}'
    || ch == '\U{202F}' || ch == '\U{205F}' || ch == '\U{3000}'
  }

  predicate AllSpace(s: string) {
    forall i :: 0 <= i < |s| ==> IsSpace(s[i])
  }

  /** Neither end of `s` is whitespace: what `strip()` leaves behind. */
  predicate IsStripped(s: string) {
    |s| == 0 || (!IsSpace(s[0]) && !IsSpace(s[|s| - 1]))
  }

  /** `str.lstrip()`: the longest suffix that does not start with whitespace. */
  function LStrip(s: string): (r: string)
    ensures |r| <= |s|
    ensures |r| == 0 || !IsSpace(r[0])
  {
    if |s| > 0 && IsSpace(s[0]) then LStrip(s[1..]) else s
  }

  /** What `lstrip()` keeps is a suffix of its input. */
  lemma {:induction false} LStripIsSuffix(s: string)
    ensures LStrip(s) == s[|s| - |LStrip(s)|..]
    decreases |s|
  {
    if |s| > 0 && IsSpace(s[0]) {
      LStripIsSuffix(s[1..]);
    }
  }

  /** `str.rstrip()`: the longest prefix that does not end with whitespace. */
  function RStrip(s: string): (r: string)
    ensures |r| <= |s|
    ensures |r| == 0 || !IsSpace(r[|r| - 1])
  {
    if |s| > 0 && IsSpace(s[|s| - 1]) then RStrip(s[..|s| - 1]) else s
  }

  /** What `rstrip()` keeps is a prefix of its input. */
  lemma {:induction false} RStripIsPrefix(s: string)
    ensures RStrip(s) == s[..|RStrip(s)|]
    decreases |s|
  {
    if |s| > 0 && IsSpace(s[|s| - 1]) {
      RStripIsPrefix(s[..|s| - 1]);
    }
  }

  /** What `lstrip()` drops is whitespace only. */
  lemma {:induction false} LStripDropsSpace(s: string)
    ensures AllSpace(s[..|s| - |LStrip(s)|])
    decreases |s|
  {
    if |s| > 0 && IsSpace(s[0]) {
      LStripDropsSpace(s[1..]);
      var k := |s| - |LStrip(s)|;
      assert forall i :: 1 <= i < k ==> s[..k][i] == s[1..][..k - 1][i - 1];
    }
  }

  /** What `rstrip()` drops is whitespace only. */
  lemma {:induction false} RStripDropsSpace(s: string)
    ensures AllSpace(s[|RStrip(s)|..])
    decreases |s|
  {
    if |s| > 0 && IsSpace(s[|s| - 1]) {
      RStripDropsSpace(s[..|s| - 1]);
      var k := |RStrip(s)|;
      assert s[k..] == s[..|s| - 1][k..] + [s[|s| - 1]];
    }
  }

  /** `str.strip()`. */
  function Strip(s: string): (r: string)
    ensures IsStripped(r)
    ensures |r| <= |s|
  {
    var l := LStrip(s);
    var r := RStrip(l);
    RStripIsPrefix(l);
    assert |r| > 0 ==> r[0] == l[0];
    r
  }

  /** `strip()` removes exactly the whitespace around a stripped core: the
      result of stripping `lead + core + trail` is `core`, whatever
      whitespace `lead` and `trail` hold. */
  lemma {:induction false} StripSurrounded(lead: string, core: string, trail: string)
    requires AllSpace(lead) && AllSpace(trail) && IsStripped(core)
    ensures Strip(lead + core + trail) == core
  {
    assert lead + core + trail == lead + (core + trail);
    LStripPrefix(lead, core + trail);
    StripFromCore(core, trail);
  }

  lemma {:induction false} StripFromCore(core: string, trail: string)
    requires AllSpace(trail) && IsStripped(core)
    ensures RStrip(LStrip(core + trail)) == core
  {
    if |core| == 0 {
      assert core + trail == trail;
      LStripAllSpace(trail);
    } else {
      assert LStrip(core + trail) == core + trail by {
        assert (core + trail)[0] == core[0];
      }
      RStripSuffix(core, trail);
    }
  }

  lemma {:induction false} LStripAllSpace(s: string)
    requires AllSpace(s)
    ensures LStrip(s) == []
  {
    if |s| > 0 {
      LStripAllSpace(s[1..]);
    }
  }

  lemma {:induction false} LStripPrefix(lead: string, rest: string)
    requires AllSpace(lead)
    ensures LStrip(lead + rest) == LStrip(rest)
    decreases |lead|
  {
    if |lead| == 0 {
      assert lead + rest == rest;
    } else {
      assert (lead + rest)[1..] == lead[1..] + rest;
      LStripPrefix(lead[1..], rest);
    }
  }

  lemma {:induction false} RStripSuffix(core: string, trail: string)
    requires AllSpace(trail) && (|core| == 0 || !IsSpace(core[|core| - 1]))
    ensures RStrip(core + trail) == core
    decreases |trail|
  {
    if |trail| == 0 {
      assert core + trail == core;
    } else {
      assert (core + trail)[..|core + trail| - 1] == core + trail[..|trail| - 1];
      RStripSuffix(core, trail[..|trail| - 1]);
    }
  }

  /** Stripping twice is stripping once. */
  lemma {:induction false} StripIdempotent(s: string)
    ensures Strip(Strip(s)) == Strip(s)
  {
    var t := Strip(s);
    StripSurrounded([], t, []);
    assert [] + t + [] == t;
  }

  // ---------------------------------------------------------------------
  // The "\n\n" codec: `"\n\n".join(xs)` and `s.split("\n\n")`.

  /** `s` has no blank-line separator "\n\n" inside it. */
  predicate NoBlankLine(s: string) {
    forall i :: 0 < i < |s| ==> !(s[i - 1] == '\n' && s[i] == '\n')
  }

  predicate EndsWithNewline(s: string) {
    |s| > 0 && s[|s| - 1] == '\n'
  }

  /** The lists the join/split pair carries unchanged: no element holds the
      separator, and no element but the last ends with a newline (which
      would make the separator match one character early). */
  predicate Splittable(xs: seq<string>) {
    forall k :: 0 <= k < |xs| ==> NoBlankLine(xs[k]) && (k + 1 < |xs| ==> !EndsWithNewline(xs[k]))
  }

  /** `"\n\n".join(xs)`. */
  function JoinParagraphs(xs: seq<string>): string
  {
    if |xs| == 0 then "" else if |xs| == 1 then xs[0] else xs[0] + "\n\n" + JoinParagraphs(xs[1..])
  }

  /** `s.split("\n\n")`: cut at every leftmost non-overlapping occurrence
      of the separator. The first piece is a prefix of `s`; when there is
      more than one piece, a separator follows the first. */
  function SplitParagraphs(s: string): (r: seq<string>)
    ensures |r| >= 1
    ensures |r[0]| <= |s| && r[0] == s[..|r[0]|]
    ensures |r| == 1 ==> r[0] == s
    ensures |r| >= 2 ==> |r[0]| + 2 <= |s| && s[|r[0]|] == '\n' && s[|r[0]| + 1] == '\n'
    decreases |s|
  {
    if |s| < 2 then [s]
    else if s[0] == '\n' && s[1] == '\n' then [""] + SplitParagraphs(s[2..])
    else
      var rest := SplitParagraphs(s[1..]);
      [[s[0]] + rest[0]] + rest[1..]
  }

  /** Joining the pieces of a split gives back the text, for every text. */
  lemma {:induction false} JoinSplit(s: string)
    ensures JoinParagraphs(SplitParagraphs(s)) == s
    decreases |s|
  {
    if |s| < 2 {
    } else if s[0] == '\n' && s[1] == '\n' {
      var rest := SplitParagraphs(s[2..]);
      JoinSplit(s[2..]);
      JoinPrepend("", rest);
      assert s == "\n\n" + s[2..];
    } else {
      var rest := SplitParagraphs(s[1..]);
      JoinSplit(s[1..]);
      JoinExtendFirst([s[0]], rest);
      assert s == [s[0]] + s[1..];
    }
  }

  lemma {:induction false} JoinPrepend(x: string, xs: seq<string>)
    requires |xs| >= 1
    ensures JoinParagraphs([x] + xs) == x + "\n\n" + JoinParagraphs(xs)
  {
    assert ([x] + xs)[1..] == xs;
  }

  lemma {:induction false} JoinExtendFirst(a: string, xs: seq<string>)
    requires |xs| >= 1
    ensures JoinParagraphs([a + xs[0]] + xs[1..]) == a + JoinParagraphs(xs)
  {
    var ys := [a + xs[0]] + xs[1..];
    if |xs| == 1 {
      assert ys == [a + xs[0]];
    } else {
      var tail := JoinParagraphs(xs[1..]);
      assert ys[1..] == xs[1..];
      assert JoinParagraphs(ys) == (a + xs[0]) + "\n\n" + tail;
      assert JoinParagraphs(xs) == xs[0] + "\n\n" + tail;
      SeparatorAssoc(a, xs[0], tail);
    }
  }

  lemma {:induction false} SeparatorAssoc(a: string, b: string, tail: string)
    ensures (a + b) + "\n\n" + tail == a + (b + "\n\n" + tail)
  {
  }

  /** The pieces of a split always form a splittable list. */
  lemma {:induction false} SplitIsSplittable(s: string)
    ensures Splittable(SplitParagraphs(s))
    decreases |s|
  {
    if |s| < 2 {
    } else if s[0] == '\n' && s[1] == '\n' {
      SplitIsSplittable(s[2..]);
      SplittableAfterEmpty(SplitParagraphs(s[2..]));
    } else {
      SplitIsSplittable(s[1..]);
      SplittableExtendFirst(s, SplitParagraphs(s[1..]));
    }
  }

  lemma {:induction false} SplittableAfterEmpty(rest: seq<string>)
    requires Splittable(rest)
    ensures Splittable([""] + rest)
  {
    var r := [""] + rest;
    forall k | 0 <= k < |r|
      ensures NoBlankLine(r[k]) && (k + 1 < |r| ==> !EndsWithNewline(r[k]))
    {
      if k > 0 {
        assert r[k] == rest[k - 1];
      }
    }
  }

  lemma {:induction false} SplittableExtendFirst(s: string, rest: seq<string>)
    requires |s| >= 2 && !(s[0] == '\n' && s[1] == '\n')
    requires rest == SplitParagraphs(s[1..])
    requires Splittable(rest)
    ensures Splittable([[s[0]] + rest[0]] + rest[1..])
  {
    var first := [s[0]] + rest[0];
    var r := [first] + rest[1..];
    assert NoBlankLine(first) by {
      forall i | 0 < i < |first|
        ensures !(first[i - 1] == '\n' && first[i] == '\n')
      {
        if i == 1 {
          assert first[1] == s[1];
        } else {
          assert first[i - 1] == rest[0][i - 2] && first[i] == rest[0][i - 1];
        }
      }
    }
    if |r| >= 2 {
      if |rest[0]| == 0 {
        assert s[1] == '\n' && s[2] == '\n';
      } else {
        assert first[|first| - 1] == rest[0][|rest[0]| - 1];
      }
      assert !EndsWithNewline(first);
    }
    forall k | 0 <= k < |r|
      ensures NoBlankLine(r[k]) && (k + 1 < |r| ==> !EndsWithNewline(r[k]))
    {
      if k > 0 {
        assert r[k] == rest[k];
      }
    }
  }

  /** Splitting `x + "\n\n" + y` cuts right after `x` when `x` cannot hide
      an earlier separator. */
  lemma {:induction false} SplitAfterFirst(x: string, y: string)
    requires NoBlankLine(x) && !EndsWithNewline(x)
    ensures SplitParagraphs(x + "\n\n" + y) == [x] + SplitParagraphs(y)
    decreases |x|
  {
    var s := x + "\n\n" + y;
    if |x| == 0 {
      assert s == "\n\n" + y;
      assert s[2..] == y;
    } else {
      assert s[0] == x[0];
      if |x| >= 2 {
        assert s[1] == x[1];
      }
      var x' := x[1..];
      assert NoBlankLine(x') by {
        forall i | 0 < i < |x'|
          ensures !(x'[i - 1] == '\n' && x'[i] == '\n')
        {
          assert x'[i - 1] == x[i] && x'[i] == x[i + 1];
        }
      }
      assert |x'| > 0 ==> x'[|x'| - 1] == x[|x| - 1];
      assert s[1..] == x' + "\n\n" + y;
      SplitAfterFirst(x', y);
      assert [x[0]] + x' == x;
    }
  }

  lemma {:induction false} SplitWithoutSeparator(s: string)
    requires NoBlankLine(s)
    ensures SplitParagraphs(s) == [s]
    decreases |s|
  {
    if |s| >= 2 {
      assert !(s[0] == '\n' && s[1] == '\n');
      var t := s[1..];
      assert NoBlankLine(t) by {
        forall i | 0 < i < |t|
          ensures !(t[i - 1] == '\n' && t[i] == '\n')
        {
          assert t[i - 1] == s[i] && t[i] == s[i + 1];
        }
      }
      SplitWithoutSeparator(t);
      assert [s[0]] + t == s;
    }
  }

  /** Splitting a join gives back the list, for every non-empty
      splittable list (an empty list comes back as `[""]`). */
  lemma {:induction false} SplitJoin(xs: seq<string>)
    requires |xs| >= 1 && Splittable(xs)
    ensures SplitParagraphs(JoinParagraphs(xs)) == xs
    decreases |xs|
  {
    if |xs| == 1 {
      SplitWithoutSeparator(xs[0]);
    } else {
      var tail := xs[1..];
      assert Splittable(tail) by {
        forall k | 0 <= k < |tail|
          ensures NoBlankLine(tail[k]) && (k + 1 < |tail| ==> !EndsWithNewline(tail[k]))
        {
          assert tail[k] == xs[k + 1];
        }
      }
      assert NoBlankLine(xs[0]) && !EndsWithNewline(xs[0]);
      SplitJoin(tail);
      SplitAfterFirst(xs[0], JoinParagraphs(tail));
      assert [xs[0]] + tail == xs;
    }
  }

  /** An empty list does not survive the trip. */
  lemma {:induction false} EmptyJoinSplitsToOnePiece()
    ensures SplitParagraphs(JoinParagraphs([])) == [""]
  {
  }
}

=== FILE: segment_merge.dfy ===
/** The transcription script's post-processing of recognised speech
    segments: adjacent segments whose start times lie close together are
    chained into one caption. */
module SegmentMerge {
  import opened Outcomes

  /** One recognised segment (or one merged caption): start and end in
      seconds and the recognised text. */
  datatype Segment = Segment(start: real, end: real, text: string)

  /** The gap the script uses when the caller gives none, in seconds. */
  const DefaultGap: real := 1.0

  /** Input `k` opens a new caption: it starts more than `gap` seconds
      after the start of the input just before it. The comparison is with
      the previous input, not with the start of the caption being built. */
  predicate BreaksAt(segs: seq<Segment>, gap: real, k: nat)
    requires 1 <= k < |segs|
  {
    segs[k].start - segs[k - 1].start > gap
  }

  /** What input `k` adds to the text of the caption it joins: a space and
      its text, or nothing when its text repeats the previous input's. */
  function Joined(segs: seq<Segment>, k: nat): string
    requires 1 <= k < |segs|
  {
    if segs[k - 1].text != segs[k].text then " " + segs[k].text else ""
  }

  /** The caption being built, with input `k` chained onto it. */
  function Extend(current: Segment, segs: seq<Segment>, k: nat): Segment
    requires 1 <= k < |segs|
  {
    Segment(current.start, segs[k].end, current.text + Joined(segs, k))
  }

  // ---------------------------------------------------------------------
  // The left fold.

  /** The loop's state: the captions already finished and the one being
      built. */
  datatype State = State(done: seq<Segment>, current: Segment)

  /** The state once the first `n` inputs have been read. Fewer captions
      are finished than inputs read; the first caption starts where the
      first input starts, and the caption being built ends where input
      `n - 1` ends. */
  function FoldState(segs: seq<Segment>, gap: real, n: nat): (st: State)
    requires 1 <= n <= |segs|
    ensures |st.done| < n
    ensures (if |st.done| == 0 then st.current else st.done[0]).start == segs[0].start
    ensures st.current.end == segs[n - 1].end
  {
    if n == 1 then
      State([], segs[0])
    else
      var st := FoldState(segs, gap, n - 1);
      if BreaksAt(segs, gap, n - 1) then
        State(st.done + [st.current], segs[n - 1])
      else
        State(st.done, Extend(st.current, segs, n - 1))
  }

  /** All captions once the first `n` inputs have been read: there is at
      least one and no more than `n`; the first starts where the first
      input starts and the last ends where input `n - 1` ends. */
  function MergePrefix(segs: seq<Segment>, gap: real, n: nat): (m: seq<Segment>)
    requires 1 <= n <= |segs|
    ensures 1 <= |m| <= n
    ensures m[0].start == segs[0].start
    ensures m[|m| - 1].end == segs[n - 1].end
  {
    var st := FoldState(segs, gap, n);
    st.done + [st.current]
  }

  /** `merge_segments_by_time(segments, merge_gap)`: no result for an empty
      input (the script reads `segments[0]` and raises), otherwise between
      one caption and as many captions as inputs, spanning from the first
      input's start to the last input's end. */
  function Merge(segs: seq<Segment>, gap: real): (r: Option<seq<Segment>>)
    ensures r.None? <==> |segs| == 0
    ensures r.Some? ==> 1 <= |r.value| <= |segs|
    ensures r.Some? ==> r.value[0].start == segs[0].start
    ensures r.Some? ==> r.value[|r.value| - 1].end == segs[|segs| - 1].end
  {
    if |segs| == 0 then None else Some(MergePrefix(segs, gap, |segs|))
  }

  /** The script's loop: a finished list, the caption being built, and the
      text and start of the previous input. It computes the fold. */
  method MergeSegmentsByTime(segs: seq<Segment>, gap: real) returns (r: Option<seq<Segment>>)
    ensures r == Merge(segs, gap)
  {
    if |segs| == 0 {
      return None;
    }
    var merged: seq<Segment> := [];
    var current := Segment(segs[0].start, segs[0].end, segs[0].text);
    var befText := current.text;
    var befStart := current.start;
    var i := 1;
    while i < |segs|
      invariant 1 <= i <= |segs|
      invariant State(merged, current) == FoldState(segs, gap, i)
      invariant befText == segs[i - 1].text && befStart == segs[i - 1].start
    {
      var next := segs[i];
      if next.start - befStart <= gap {
        current := current.(end := next.end);
        if befText != next.text {
          current := current.(text := current.text + (" " + next.text));
        }
      } else {
        merged := merged + [current];
        current := Segment(next.start, next.end, next.text);
      }
      befText := next.text;
      befStart := next.start;
      i := i + 1;
    }
    merged := merged + [current];
    return Some(merged);
  }

  // ---------------------------------------------------------------------
  // The same result described by its groups.

  /** The inputs among the first `n` that open a new caption after the
      first, in input order. */
  function Breaks(segs: seq<Segment>, gap: real, n: nat): (ks: seq<nat>)
    requires 1 <= n <= |segs|
    ensures |ks| < n
    ensures forall g :: 0 <= g < |ks| ==> 1 <= ks[g] < n
  {
    if n == 1 then []
    else Breaks(segs, gap, n - 1) + (if BreaksAt(segs, gap, n - 1) then [n - 1] else [])
  }

  /** The first input of every caption: input 0, then every break. */
  function Leaders(segs: seq<Segment>, gap: real, n: nat): seq<nat>
    requires 1 <= n <= |segs|
  {
    [0] + Breaks(segs, gap, n)
  }

  /** The text of the caption made of inputs `lo .. hi - 1`: the first
      input's text, then each later input's contribution. */
  function GroupText(segs: seq<Segment>, lo: nat, hi: nat): string
    requires lo < hi <= |segs|
    decreases hi
  {
    if hi == lo + 1 then segs[lo].text else GroupText(segs, lo, hi - 1) + Joined(segs, hi - 1)
  }

  /** The caption made of inputs `lo .. hi - 1`. */
  function Group(segs: seq<Segment>, lo: nat, hi: nat): Segment
    requires lo < hi <= |segs|
  {
    Segment(segs[lo].start, segs[hi - 1].end, GroupText(segs, lo, hi))
  }

  /** Where the caption opened by leader `g` ends (exclusive). */
  function GroupEnd(ls: seq<nat>, g: nat, n: nat): nat
    requires g < |ls|
  {
    if g + 1 < |ls| then ls[g + 1] else n
  }

  /** Every input is either a break or chained onto its predecessor: input
      `k >= 1` is among the breaks exactly when it starts more than `gap`
      after input `k - 1`, and the breaks are listed in increasing order. */
  lemma {:induction false} BreaksIff(segs: seq<Segment>, gap: real, n: nat)
    requires 1 <= n <= |segs|
    ensures forall k :: 1 <= k < n ==> (k in Breaks(segs, gap, n) <==> BreaksAt(segs, gap, k))
    ensures forall g, h :: 0 <= g < h < |Breaks(segs, gap, n)| ==> Breaks(segs, gap, n)[g] < Breaks(segs, gap, n)[h]
  {
    if n > 1 {
      BreaksIff(segs, gap, n - 1);
    }
  }

  /** The loop state is the grouping of the first `n` inputs: finished
      caption `g` is the group from leader `g` up to leader `g + 1`, and
      the caption being built is the group from the last leader up to
      input `n`. */
  predicate Grouped(segs: seq<Segment>, gap: real, n: nat)
    requires 1 <= n <= |segs|
  {
    var st, ls := FoldState(segs, gap, n), Leaders(segs, gap, n);
    && |st.done| == |Breaks(segs, gap, n)|
    && (forall g :: 0 <= g < |st.done| ==> ls[g] < ls[g + 1] && st.done[g] == Group(segs, ls[g], ls[g + 1]))
    && ls[|st.done|] < n && st.current == Group(segs, ls[|st.done|], n)
  }

  /** Reading a break finishes the caption being built, which is then the
      group up to the break, and opens the one-input group of the break. */
  lemma {:induction false} GroupedAfterBreak(segs: seq<Segment>, gap: real, n: nat)
    requires 2 <= n <= |segs| && BreaksAt(segs, gap, n - 1)
    requires Grouped(segs, gap, n - 1)
    ensures Grouped(segs, gap, n)
  {
    var st, ls := FoldState(segs, gap, n), Leaders(segs, gap, n);
    var st', ls' := FoldState(segs, gap, n - 1), Leaders(segs, gap, n - 1);
    var last := |st'.done|;
    assert st.done == st'.done + [st'.current];
    assert st.current == segs[n - 1] == Group(segs, n - 1, n);
    assert Breaks(segs, gap, n) == Breaks(segs, gap, n - 1) + [n - 1];
    assert ls == ls' + [n - 1];
    forall g | 0 <= g < |st.done|
      ensures ls[g] < ls[g + 1] && st.done[g] == Group(segs, ls[g], ls[g + 1])
    {
      if g < last {
        assert ls[g] == ls'[g] && ls[g + 1] == ls'[g + 1];
        assert st.done[g] == st'.done[g];
      } else {
        assert ls[g] == ls'[last] && ls[g + 1] == n - 1;
        assert st.done[g] == st'.current;
      }
    }
    assert ls[|st.done|] == n - 1;
  }

  /** Reading an input that is not a break extends the group being built
      by one input. */
  lemma {:induction false} GroupedAfterChain(segs: seq<Segment>, gap: real, n: nat)
    requires 2 <= n <= |segs| && !BreaksAt(segs, gap, n - 1)
    requires Grouped(segs, gap, n - 1)
    ensures Grouped(segs, gap, n)
  {
    var st, st' := FoldState(segs, gap, n), FoldState(segs, gap, n - 1);
    assert Leaders(segs, gap, n) == Leaders(segs, gap, n - 1);
    assert st.done == st'.done;
    assert st.current == Extend(st'.current, segs, n - 1);
  }

  /** Before the loop the first input is the caption being built. */
  lemma {:induction false} GroupedAtStart(segs: seq<Segment>, gap: real)
    requires 1 <= |segs|
    ensures Grouped(segs, gap, 1)
  {
    assert Leaders(segs, gap, 1) == [0];
  }

  /** Every loop state is the grouping of the inputs read so far. */
  lemma {:induction false} FoldIsGrouping(segs: seq<Segment>, gap: real, n: nat)
    requires 1 <= n <= |segs|
    ensures Grouped(segs, gap, n)
  {
    if n == 1 {
      GroupedAtStart(segs, gap);
    } else {
      FoldIsGrouping(segs, gap, n - 1);
      if BreaksAt(segs, gap, n - 1) {
        GroupedAfterBreak(segs, gap, n);
      } else {
        GroupedAfterChain(segs, gap, n);
      }
    }
  }

  /** The merged captions are the groups: one caption per leader, so one
      more than there are breaks, and caption `g` runs from leader `g` up
      to the next leader (or the end), starting at the leader's start,
      ending at its last input's end and carrying the group's text. */
  lemma {:induction false} MergeIsGrouping(segs: seq<Segment>, gap: real, n: nat)
    requires 1 <= n <= |segs|
    ensures var m, ls := MergePrefix(segs, gap, n), Leaders(segs, gap, n);
      && |m| == |ls| == 1 + |Breaks(segs, gap, n)|
      && forall g :: 0 <= g < |m| ==> ls[g] < GroupEnd(ls, g, n) <= n && m[g] == Group(segs, ls[g], GroupEnd(ls, g, n))
  {
    var st, m, ls := FoldState(segs, gap, n), MergePrefix(segs, gap, n), Leaders(segs, gap, n);
    FoldIsGrouping(segs, gap, n);
    assert m == st.done + [st.current];
    assert |ls| == |st.done| + 1;
    forall g | 0 <= g < |m|
      ensures ls[g] < GroupEnd(ls, g, n) <= n && m[g] == Group(segs, ls[g], GroupEnd(ls, g, n))
    {
      if g < |st.done| {
        assert GroupEnd(ls, g, n) == ls[g + 1];
        assert m[g] == st.done[g];
      } else {
        assert GroupEnd(ls, g, n) == n;
        assert m[g] == st.current;
      }
    }
  }

  /** A caption whose inputs all say the same thing says it once: repeated
      consecutive texts are not appended again. */
  lemma {:induction false} RepeatsCollapse(segs: seq<Segment>, lo: nat, hi: nat, t: string)
    requires lo < hi <= |segs|
    requires forall k :: lo <= k < hi ==> segs[k].text == t
    ensures GroupText(segs, lo, hi) == t
    decreases hi
  {
    if hi > lo + 1 {
      RepeatsCollapse(segs, lo, hi - 1, t);
      assert Joined(segs, hi - 1) == "";
    }
  }

  /** A text is dropped only when it repeats the input just before it:
      within one caption, `a`, `b`, `a` keeps all three texts. */
  lemma {:induction false} OnlyConsecutiveRepeatsDrop(segs: seq<Segment>, lo: nat, a: string, b: string)
    requires lo + 3 <= |segs| && a != b
    requires segs[lo].text == a && segs[lo + 1].text == b && segs[lo + 2].text == a
    ensures GroupText(segs, lo, lo + 3) == a + " " + b + " " + a
  {
    assert GroupText(segs, lo, lo + 2) == a + " " + b;
  }

  /** Chaining is measured input to input, so one caption can stretch far
      beyond `gap`: when every input starts exactly `gap` after the one
      before it, all of them end up in a single caption running from the
      first input's start to input `n - 1`'s end. */
  lemma {:induction false} EvenlySpacedChain(segs: seq<Segment>, gap: real, n: nat)
    requires 1 <= n <= |segs|
    requires forall k :: 1 <= k < |segs| ==> segs[k].start - segs[k - 1].start == gap
    ensures |MergePrefix(segs, gap, n)| == 1
  {
    if n > 1 {
      EvenlySpacedChain(segs, gap, n - 1);
      assert !BreaksAt(segs, gap, n - 1);
    }
  }

  /** At the default gap of one second, two segments starting exactly one
      second apart still share a caption; any later start opens a new
      one. */
  lemma {:induction false} DefaultGapIsInclusive(x: Segment, y: Segment)
    ensures var m := MergePrefix([x, y], DefaultGap, 2);
      && (y.start - x.start <= 1.0 ==> m == [Segment(x.start, y.end, x.text + Joined([x, y], 1))])
      && (y.start - x.start > 1.0 ==> m == [x, y])
  {
    var segs := [x, y];
    assert FoldState(segs, DefaultGap, 1) == State([], x);
    assert BreaksAt(segs, DefaultGap, 1) <==> y.start - x.start > 1.0;
  }
}

=== FILE: srt.dfy ===
/** The SubRip (.srt) layout the translation script reads and writes:
    blocks of an index line, a `start --> end` line and the caption text,
    each block followed by a blank line. */
module Srt {
  import opened Decimal
  import opened PyText
  import opened Timecode

  /** One caption record: `{index, start_time, end_time, text}`. The
      timestamps are kept as the text the file holds. */
  datatype Subtitle = Subtitle(index: nat, startTime: string, endTime: string, text: string)

  /** The two header lines of a block: `index\nstart --> end\n`. */
  function Header(r: Subtitle): string {
    NatToString(r.index) + "\n" + r.startTime + " --> " + r.endTime + "\n"
  }

  /** One block as `save_to_srt` writes it: header, text, blank line. */
  function Block(r: Subtitle): string {
    Header(r) + r.text + "\n\n"
  }

  /** The file content `save_to_srt` writes: every record's block, in order. */
  function Serialize(subs: seq<Subtitle>): string {
    if |subs| == 0 then "" else Block(subs[0]) + Serialize(subs[1..])
  }

  /** Writing two lists is writing one after the other. */
  lemma {:induction false} SerializeAppend(a: seq<Subtitle>, b: seq<Subtitle>)
    ensures Serialize(a + b) == Serialize(a) + Serialize(b)
    decreases |a|
  {
    if |a| == 0 {
      assert a + b == b;
    } else {
      assert (a + b)[1..] == a[1..] + b;
      SerializeAppend(a[1..], b);
    }
  }

  // ---------------------------------------------------------------------
  // The reader: the pattern
  //   (\d+)\n(\d{2}:\d{2}:\d{2},\d{3}) --> (\d{2}:\d{2}:\d{2},\d{3})\n(.*?)(?=\n\d+\n|\Z)
  // applied with `finditer` under DOTALL, restricted to ASCII digits.

  /** The lookahead `\n\d+\n` holds at the start of `s`: a line made only
      of digits begins right after the first character, a newline. */
  predicate IndexLineAt(s: string) {
    && |s| >= 1 && s[0] == '\n'
    && var d := DigitRun(s[1..]);
       d >= 1 && 1 + d < |s| && s[1 + d] == '\n'
  }

  /** How much the lazy `(.*?)` takes: up to the first position where the
      lookahead `\n\d+\n` holds, or to the end of the content. */
  function TextLength(s: string): (n: nat)
    ensures n <= |s|
    ensures n == |s| || IndexLineAt(s[n..])
  {
    if |s| == 0 || IndexLineAt(s) then 0 else 1 + TextLength(s[1..])
  }

  /** The text group is the shortest one: the lookahead fails at every
      earlier position. */
  lemma {:induction false} TextLengthIsLeast(s: string, p: nat)
    requires p < TextLength(s)
    ensures !IndexLineAt(s[p..])
    decreases p
  {
    if p > 0 {
      assert s[p..] == s[1..][p - 1..];
      TextLengthIsLeast(s[1..], p - 1);
    }
  }

  /** The fixed part of the pattern matches at the start of `s`: digits,
      then `HeaderRest`. It is `DigitRun(s) + 31` characters long. */
  predicate HeaderAt(s: string) {
    var d := DigitRun(s);
    d >= 1 && HeaderRest(s[d..])
  }

  /** What follows the index digits in a header: newline, timestamp,
      ` --> `, timestamp, newline (31 characters). */
  predicate HeaderRest(t: string) {
    && |t| >= 31
    && t[0] == '\n'
    && IsTimestamp(t[1..13])
    && t[13..18] == " --> "
    && IsTimestamp(t[18..30])
    && t[30] == '\n'
  }

  /** The record a match at the start of `s` yields: the index is `int`
      of the digit run, the timestamps are the two captured groups, and
      the text is the lazy group, stripped. */
  function Matched(s: string): (r: Subtitle)
    requires HeaderAt(s)
    ensures IsRead(r)
  {
    var d := DigitRun(s);
    var head := s[d..];
    var body := head[31..];
    assert HeaderRest(head);
    Subtitle(DigitsToNat(s[..d]), head[1..13], head[18..30], Strip(body[..TextLength(body)]))
  }

  /** Where a match at the start of `s` ends: after the header and the
      text group. The lookahead consumes nothing. */
  function MatchEnd(s: string): (e: nat)
    requires 1 <= DigitRun(s) && DigitRun(s) + 31 <= |s|
    ensures 32 <= e <= |s|
  {
    var d := DigitRun(s);
    d + 31 + TextLength(s[d + 31..])
  }

  /** `load_from_srt` on the content of a file: scan left to right; where
      the pattern matches, take its record and go on where the match
      ends; elsewhere move one character on. Every record has
      well-formed timestamps and stripped text, and each consumes at
      least 32 characters. */
  function Parse(s: string): (subs: seq<Subtitle>)
    ensures AllRead(subs)
    ensures 32 * |subs| <= |s|
    decreases |s|
  {
    if |s| == 0 then []
    else if HeaderAt(s) then
      var m := Matched(s);
      var more := Parse(s[MatchEnd(s)..]);
      PrependRead(m, more);
      [m] + more
    else Parse(s[1..])
  }

  /** A record as the reader produces it: well-formed timestamps and
      stripped text. */
  predicate IsRead(r: Subtitle) {
    IsTimestamp(r.startTime) && IsTimestamp(r.endTime) && IsStripped(r.text)
  }

  predicate AllRead(subs: seq<Subtitle>) {
    forall k :: 0 <= k < |subs| ==> IsRead(subs[k])
  }

  lemma {:induction false} PrependRead(r: Subtitle, more: seq<Subtitle>)
    requires IsRead(r) && AllRead(more)
    ensures AllRead([r] + more)
  {
    assert forall k :: 1 <= k < |more| + 1 ==> ([r] + more)[k] == more[k - 1];
  }

  // ---------------------------------------------------------------------
  // Round trip.

  /** No line consisting only of digits starts inside `text` once the
      newline that follows it in a block is added: `text + "\n"` has no
      `\n\d+\n` starting within `text`. Otherwise the reader would end
      the text there. */
  predicate NoIndexLine(text: string)
    decreases |text|
  {
    |text| == 0 || (!IndexLineAt(text + "\n") && NoIndexLine(text[1..]))
  }

  /** A record the writer and reader agree on. */
  predicate WellFormed(r: Subtitle) {
    IsTimestamp(r.startTime) && IsTimestamp(r.endTime) && IsStripped(r.text) && NoIndexLine(r.text)
  }

  /** Reading back what was written gives the same records, when every
      record is well formed. */
  lemma {:induction false} ParseSerialize(subs: seq<Subtitle>)
    requires forall k :: 0 <= k < |subs| ==> WellFormed(subs[k])
    ensures Parse(Serialize(subs)) == subs
    decreases |subs|
  {
    if |subs| > 0 {
      var r, tail := subs[0], subs[1..];
      assert forall k :: 0 <= k < |tail| ==> WellFormed(tail[k]) by {
        forall k | 0 <= k < |tail|
          ensures WellFormed(tail[k])
        {
          assert tail[k] == subs[k + 1];
        }
      }
      ParseSerialize(tail);
      assert Serialize(subs) == Block(r) + Serialize(tail);
      if |tail| > 0 {
        SerializeStartsWithIndex(tail);
      }
      ParseBlock(r, Serialize(tail));
      assert subs == [r] + tail;
    }
  }

  /** A non-empty serialisation starts with a digit run and a newline. */
  lemma {:induction false} SerializeStartsWithIndex(subs: seq<Subtitle>)
    requires |subs| >= 1
    requires IsTimestamp(subs[0].startTime) && IsTimestamp(subs[0].endTime)
    ensures StartsWithIndex(Serialize(subs))
  {
    var r := subs[0];
    var tail := r.text + "\n\n" + Serialize(subs[1..]);
    assert Serialize(subs) == Header(r) + tail;
    HeaderFields(r, tail);
  }

  predicate StartsWithIndex(s: string) {
    var d := DigitRun(s);
    d >= 1 && d < |s| && s[d] == '\n'
  }

  /** The reader takes one written block back as its record and resumes
      at the next block. */
  lemma {:induction false} ParseBlock(r: Subtitle, rest: string)
    requires WellFormed(r)
    requires rest == "" || StartsWithIndex(rest)
    ensures Parse(Block(r) + rest) == [r] + Parse(rest)
  {
    var s := Block(r) + rest;
    var tail := r.text + ("\n\n" + rest);
    var n := |r.text| + if rest == "" then 2 else 1;
    assert s == Header(r) + tail;
    HeaderFields(r, tail);
    MatchedBlock(r, rest);
    ParseAtRecord(s, r, tail, n);
    if rest != "" {
      assert tail[n..] == "\n" + rest by {
        TextGroupBeforeIndex(r.text, rest);
      }
      ParseSkipsNewline(rest);
    } else {
      assert tail[n..] == [];
    }
  }

  /** A match whose groups spell out `r` yields `r`, and scanning goes on
      after its text group. */
  lemma {:induction false} ParseAtRecord(s: string, r: Subtitle, tail: string, n: nat)
    requires HeaderAt(s)
    requires var d := DigitRun(s);
      && AllDigits(s[..d]) && DigitsToNat(s[..d]) == r.index
      && s[d..][1..13] == r.startTime && s[d..][18..30] == r.endTime && s[d..][31..] == tail
    requires TextLength(tail) == n && Strip(tail[..n]) == r.text
    ensures Parse(s) == [r] + Parse(tail[n..])
  {
    MatchedIs(s, r, tail, n);
    MatchEndIs(s, tail, n);
    ParseAtMatch(s);
  }

  lemma {:induction false} MatchedIs(s: string, r: Subtitle, tail: string, n: nat)
    requires HeaderAt(s)
    requires var d := DigitRun(s);
      && AllDigits(s[..d]) && DigitsToNat(s[..d]) == r.index
      && s[d..][1..13] == r.startTime && s[d..][18..30] == r.endTime && s[d..][31..] == tail
    requires TextLength(tail) == n && Strip(tail[..n]) == r.text
    ensures Matched(s) == r
  {
  }

  lemma {:induction false} MatchEndIs(s: string, tail: string, n: nat)
    requires 1 <= DigitRun(s) && DigitRun(s) + 31 <= |s|
    requires s[DigitRun(s)..][31..] == tail
    requires TextLength(tail) == n
    ensures s[MatchEnd(s)..] == tail[n..]
  {
    var d := DigitRun(s);
    assert s[d + 31..] == tail by {
      DropDrop(s, d, 31);
    }
    assert MatchEnd(s) == d + 31 + n;
    DropAfter(s, d + 31, tail, n);
  }

  /** The text group of a written block is the record's text followed by
      one newline (before another block) or two (at the end). */
  lemma {:induction false} MatchedBlock(r: Subtitle, rest: string)
    requires WellFormed(r)
    requires rest == "" || StartsWithIndex(rest)
    ensures var tail := r.text + ("\n\n" + rest);
      var n := |r.text| + if rest == "" then 2 else 1;
      TextLength(tail) == n && Strip(tail[..n]) == r.text
  {
    TextLengthSkipsText(r.text, "\n\n" + rest);
    if rest == "" {
      TextLengthAtEnd();
      TextGroupAtEnd(r.text);
    } else {
      TextLengthBeforeIndex(rest);
      TextGroupBeforeIndex(r.text, rest);
    }
  }

  lemma {:induction false} ParseAtMatch(s: string)
    requires HeaderAt(s)
    ensures Parse(s) == [Matched(s)] + Parse(s[MatchEnd(s)..])
  {
  }

  lemma {:induction false} ParseSkipsNewline(rest: string)
    ensures Parse("\n" + rest) == Parse(rest)
  {
    assert DigitRun("\n" + rest) == 0;
    assert ("\n" + rest)[1..] == rest;
  }

  lemma {:induction false} TextGroupAtEnd(text: string)
    requires IsStripped(text)
    ensures var tail := text + ("\n\n" + "");
      tail[..|text| + 2] == text + "\n\n" && tail[|text| + 2..] == []
      && Strip(tail[..|text| + 2]) == text
  {
    StrippedBeforeNewlines(text, "\n\n");
  }

  lemma {:induction false} TextGroupBeforeIndex(text: string, rest: string)
    requires IsStripped(text)
    ensures var tail := text + ("\n\n" + rest);
      tail[..|text| + 1] == text + "\n" && tail[|text| + 1..] == "\n" + rest
      && Strip(tail[..|text| + 1]) == text
  {
    var tail := text + ("\n\n" + rest);
    assert tail == (text + "\n") + ("\n" + rest);
    ConcatSlices(text + "\n", "\n" + rest);
    StrippedBeforeNewlines(text, "\n");
  }

  lemma {:induction false} StrippedBeforeNewlines(text: string, nl: string)
    requires IsStripped(text) && AllSpace(nl)
    ensures Strip(text + nl) == text
  {
    StripSurrounded([], text, nl);
    assert [] + text + nl == text + nl;
  }

  /** After the last block the text group runs to the end of the content. */
  lemma {:induction false} TextLengthAtEnd()
    ensures TextLength("\n\n") == 2
  {
    assert !IndexLineAt("\n\n");
    assert ("\n\n")[1..] == "\n";
    assert !IndexLineAt("\n");
    assert ("\n")[1..] == "";
  }

  /** Before another block the text group stops at the newline that
      precedes the next index line. */
  lemma {:induction false} TextLengthBeforeIndex(rest: string)
    requires StartsWithIndex(rest)
    ensures TextLength("\n\n" + rest) == 1
  {
    var x := "\n\n" + rest;
    assert x[1..] == "\n" + rest;
    assert ("\n" + rest)[1..] == rest;
    assert DigitRun(x[1..]) == 0;
    assert !IndexLineAt(x);
    assert IndexLineAt("\n" + rest);
  }

  /** The reader's view of a written header: the pattern's fixed part
      matches, its groups are the record's fields, and the text starts
      right after it. */
  lemma {:induction false} HeaderFields(r: Subtitle, tail: string)
    requires IsTimestamp(r.startTime) && IsTimestamp(r.endTime)
    ensures var s := Header(r) + tail;
      var d := |NatToString(r.index)|;
      && DigitRun(s) == d && HeaderAt(s)
      && AllDigits(s[..d]) && DigitsToNat(s[..d]) == r.index
      && s[d..][1..13] == r.startTime && s[d..][18..30] == r.endTime
      && s[d..][31..] == tail
  {
    var n := NatToString(r.index);
    var after := "\n" + r.startTime + " --> " + r.endTime + "\n" + tail;
    var s := Header(r) + tail;
    assert s == n + after;
    DigitRunOfDigits(n);
    DigitRunAppend(n, after);
    assert DigitRun(after) == 0;
    assert DigitRun(s) == |n|;
    ConcatSlices(n, after);
    assert s[..|n|] == n && s[|n|..] == after;
    NatToStringRoundTrip(r.index);
    HeaderRestOf(r.startTime, r.endTime, tail);
    assert HeaderRest(s[|n|..]);
  }

  lemma {:induction false} HeaderRestOf(start: string, end: string, tail: string)
    requires IsTimestamp(start) && IsTimestamp(end)
    ensures var t := "\n" + start + " --> " + end + "\n" + tail;
      HeaderRest(t) && t[1..13] == start && t[18..30] == end && t[31..] == tail
  {
    var p4 := "\n" + tail;
    var p3 := end + p4;
    var p2 := " --> " + p3;
    var p1 := start + p2;
    var t := "\n" + p1;
    assert t == "\n" + start + " --> " + end + "\n" + tail;
    ConcatSlices("\n", p1);
    ConcatSlices(start, p2);
    ConcatSlices(" --> ", p3);
    ConcatSlices(end, p4);
    ConcatSlices("\n", tail);
    assert t[1..] == p1;
    assert t[1..13] == p1[..12];
    assert t[13..] == p2;
    assert t[13..18] == p2[..5];
    assert t[18..] == p3;
    assert t[18..30] == p3[..12];
    assert t[30..] == p4;
  }

  lemma {:induction false} DropDrop<T>(s: seq<T>, a: nat, b: nat)
    requires a + b <= |s|
    ensures s[a..][b..] == s[a + b..]
  {
  }

  lemma {:induction false} DropAfter<T>(s: seq<T>, a: nat, tail: seq<T>, n: nat)
    requires a <= |s| && s[a..] == tail && n <= |tail|
    ensures s[a + n..] == tail[n..]
  {
  }

  lemma {:induction false} ConcatSlices<T>(a: seq<T>, b: seq<T>)
    ensures (a + b)[..|a|] == a && (a + b)[|a|..] == b
  {
  }

  /** The lazy text group runs over a text without index lines and stops
      only in what follows it. */
  lemma {:induction false} TextLengthSkipsText(text: string, tail: string)
    requires NoIndexLine(text)
    requires |tail| >= 1 && tail[0] == '\n'
    ensures TextLength(text + tail) == |text| + TextLength(tail)
    decreases |text|
  {
    if |text| == 0 {
      assert text + tail == tail;
    } else {
      IndexLineLocal(text, tail);
      assert (text + tail)[1..] == text[1..] + tail;
      TextLengthSkipsText(text[1..], tail);
    }
  }

  /** Whether the lookahead holds inside `text` depends on what follows
      `text` only through its first character, a newline. */
  lemma {:induction false} IndexLineLocal(text: string, tail: string)
    requires |text| >= 1 && |tail| >= 1 && tail[0] == '\n'
    ensures IndexLineAt(text + tail) == IndexLineAt(text + "\n")
  {
    var x, y := text + tail, text + "\n";
    assert x[1..] == text[1..] + tail;
    assert y[1..] == text[1..] + "\n";
    DigitRunAppend(text[1..], tail);
    DigitRunAppend(text[1..], "\n");
    var d := DigitRun(text[1..]);
    if d == |text| - 1 {
      assert x[1 + d] == tail[0];
      assert y[1 + d] == '\n';
    } else {
      assert x[1 + d] == text[1 + d] == y[1 + d];
    }
  }

  /** A text whose last line is a number loses that line on the way
      back: the reader ends the text group at `\n<digits>\n`, so only the
      part before it survives. */
  lemma {:induction false} TrailingNumberLineIsCut(r: Subtitle, pre: string, digits: string)
    requires IsTimestamp(r.startTime) && IsTimestamp(r.endTime)
    requires IsStripped(pre) && NoIndexLine(pre)
    requires |digits| >= 1 && AllDigits(digits)
    requires r.text == pre + "\n" + digits
    ensures Parse(Serialize([r])) == [r.(text := pre)]
  {
    var q := r.(text := pre);
    var tail := pre + ("\n" + (digits + "\n\n"));
    TrailingLayout(r, pre, digits);
    CutTextLength(pre, digits);
    CutTextRest(pre, digits);
    ParseHeaderThen(q, tail, |pre|);
    assert [q] + [] == [q];
  }

  lemma {:induction false} TrailingLayout(r: Subtitle, pre: string, digits: string)
    requires r.text == pre + "\n" + digits
    ensures Serialize([r]) == Header(r.(text := pre)) + (pre + ("\n" + (digits + "\n\n")))
  {
    assert Serialize([r]) == Block(r) + Serialize([]);
    assert Header(r) == Header(r.(text := pre));
    assert r.text == pre + ("\n" + digits);
  }

  /** A written header followed by a text group of length `n` whose
      stripped form is the record's text reads back as that record. */
  lemma {:induction false} ParseHeaderThen(r: Subtitle, tail: string, n: nat)
    requires IsTimestamp(r.startTime) && IsTimestamp(r.endTime)
    requires TextLength(tail) == n && Strip(tail[..n]) == r.text
    ensures Parse(Header(r) + tail) == [r] + Parse(tail[n..])
  {
    HeaderFields(r, tail);
    ParseAtRecord(Header(r) + tail, r, tail, n);
  }

  /** The text group of `pre` stops at a following number line. */
  lemma {:induction false} CutTextLength(pre: string, digits: string)
    requires NoIndexLine(pre)
    requires |digits| >= 1 && AllDigits(digits)
    ensures TextLength(pre + ("\n" + (digits + "\n\n"))) == |pre|
  {
    TextLengthSkipsText(pre, "\n" + (digits + "\n\n"));
    NumberLineAt(digits);
  }

  /** Nothing after the cut number line is read as a record. */
  lemma {:induction false} CutTextRest(pre: string, digits: string)
    requires AllDigits(digits)
    ensures Parse((pre + ("\n" + (digits + "\n\n")))[|pre|..]) == []
  {
    ConcatSlices(pre, "\n" + (digits + "\n\n"));
    ParseSkipsNewline(digits + "\n\n");
    DigitsLineHasNoRecord(digits);
  }

  lemma {:induction false} NumberLineAt(digits: string)
    requires |digits| >= 1 && AllDigits(digits)
    ensures IndexLineAt("\n" + (digits + "\n\n"))
  {
    var after := "\n" + (digits + "\n\n");
    assert after[1..] == digits + "\n\n";
    DigitRunOfDigits(digits);
    DigitRunAppend(digits, "\n\n");
  }

  lemma {:induction false} DigitsLineHasNoRecord(ds: string)
    requires AllDigits(ds)
    ensures Parse(ds + "\n\n") == []
    decreases |ds|
  {
    var s := ds + "\n\n";
    if |ds| > 0 {
      assert DigitRun(s) == |ds| by {
        DigitRunOfDigits(ds);
        DigitRunAppend(ds, "\n\n");
      }
      assert s[|ds|..] == "\n\n";
      assert s[1..] == ds[1..] + "\n\n";
      DigitsLineHasNoRecord(ds[1..]);
    }
  }

}

=== FILE: timecode.dfy ===
/** SubRip timestamps `HH:MM:SS,mmm`: the shape the subtitle reader
    accepts, and the formatter the transcription script writes them with. */
module Timecode {
  import opened Decimal

  const MillisPerHour: nat := 3_600_000
  const MillisPerMinute: nat := 60_000

  /** The regular expression `\d{2}:\d{2}:\d{2},\d{3}`. */
  predicate IsTimestamp(s: string) {
    && |s| == 12
    && IsDigit(s[0]) && IsDigit(s[1]) && s[2] == ':'
    && IsDigit(s[3]) && IsDigit(s[4]) && s[5] == ':'
    && IsDigit(s[6]) && IsDigit(s[7]) && s[8] == ','
    && IsDigit(s[9]) && IsDigit(s[10]) && IsDigit(s[11])
  }

  /** The number of milliseconds a well-formed timestamp denotes. */
  function ParseTimestamp(s: string): nat
    requires IsTimestamp(s)
  {
    assert AllDigits(s[0..2]) && AllDigits(s[3..5]) && AllDigits(s[6..8]) && AllDigits(s[9..12]);
    DigitsToNat(s[0..2]) * MillisPerHour + DigitsToNat(s[3..5]) * MillisPerMinute
      + DigitsToNat(s[6..8]) * 1000 + DigitsToNat(s[9..12])
  }

  datatype Clock = Clock(hours: nat, mins: nat, secs: nat, millis: nat)

  /** The clock fields of a duration of `t` milliseconds, split the way the
      formatter splits them: milliseconds off first, then two `divmod`s by
      60. Minutes, seconds and milliseconds are in range and the fields add
      back up to `t`; hours are unbounded. */
  function Fields(t: nat): (c: Clock)
    ensures c.mins < 60 && c.secs < 60 && c.millis < 1000
    ensures c.hours * MillisPerHour + c.mins * MillisPerMinute + c.secs * 1000 + c.millis == t
  {
    var millis := t % 1000;
    var seconds := t / 1000;
    var mins := seconds / 60;
    var secs := seconds % 60;
    var hours := mins / 60;
    var c := Clock(hours, mins % 60, secs, millis);
    assert mins == hours * 60 + c.mins;
    assert seconds == mins * 60 + secs;
    assert t == seconds * 1000 + millis;
    c
  }

  /** The f-string `{hours:02}:{mins:02}:{secs:02},{millis:03}`. */
  function Layout(c: Clock): string {
    ZeroPad(c.hours, 2) + ":" + ZeroPad(c.mins, 2) + ":" + ZeroPad(c.secs, 2) + "," + ZeroPad(c.millis, 3)
  }

  /** The formatter applied to a whole number of milliseconds. */
  function FormatMillis(t: nat): string {
    Layout(Fields(t))
  }

  /** `format_time(seconds)`: milliseconds are `int((seconds % 1) * 1000)`,
      whole seconds `int(seconds)`, then two `divmod`s by 60. On exact
      non-negative reals `int` is the floor and `seconds % 1` the fraction. */
  function FormatTime(seconds: real): string
    requires seconds >= 0.0
  {
    var millis := ((seconds - seconds.Floor as real) * 1000.0).Floor;
    var whole := seconds.Floor;
    var mins, secs := whole / 60, whole % 60;
    var hours, mins' := mins / 60, mins % 60;
    Layout(Clock(hours, mins', secs, millis))
  }

  /** The number of whole milliseconds in `seconds`. */
  function TruncMillis(seconds: real): (t: nat)
    requires seconds >= 0.0
    ensures t as real <= seconds * 1000.0 < (t + 1) as real
  {
    (seconds * 1000.0).Floor
  }

  /** Formatting seconds is formatting their whole milliseconds: the
      fractional part and the whole part of `seconds` carry exactly the
      milliseconds field and the clock fields of `TruncMillis(seconds)`. */
  lemma {:induction false} FormatTimeIsFormatMillis(seconds: real)
    requires seconds >= 0.0
    ensures FormatTime(seconds) == FormatMillis(TruncMillis(seconds))
  {
    MillisSplit(seconds);
  }

  /** The whole milliseconds of `seconds` are its whole seconds times
      1000 plus the whole milliseconds of its fractional part. */
  lemma {:induction false} MillisSplit(seconds: real)
    requires seconds >= 0.0
    ensures var t := TruncMillis(seconds);
      && t / 1000 == seconds.Floor
      && t % 1000 == ((seconds - seconds.Floor as real) * 1000.0).Floor
  {
    var whole := seconds.Floor;
    var frac := seconds - whole as real;
    var millis := (frac * 1000.0).Floor;
    var t := TruncMillis(seconds);
    assert 0.0 <= frac < 1.0;
    assert 0 <= millis < 1000 by {
      assert frac * 1000.0 < 1000.0;
    }
    assert seconds * 1000.0 == (whole * 1000) as real + frac * 1000.0;
    assert t == whole * 1000 + millis by {
      var m := (whole * 1000 + millis) as real;
      assert m <= seconds * 1000.0 < m + 1.0;
    }
  }

  /** A duration below 100 hours formats as a well-formed 12-character
      timestamp that reads back as the same number of milliseconds. */
  lemma {:induction false} FormatParseRoundTrip(t: nat)
    requires t < 100 * MillisPerHour
    ensures IsTimestamp(FormatMillis(t))
    ensures ParseTimestamp(FormatMillis(t)) == t
  {
    var c := Fields(t);
    LayoutParse(c);
  }

  lemma {:induction false} LayoutParse(c: Clock)
    requires c.hours < 100 && c.mins < 60 && c.secs < 60 && c.millis < 1000
    ensures IsTimestamp(Layout(c))
    ensures ParseTimestamp(Layout(c)) == c.hours * MillisPerHour + c.mins * MillisPerMinute + c.secs * 1000 + c.millis
  {
    NatToStringShort(c.hours);
    NatToStringShort(c.mins);
    NatToStringShort(c.secs);
    NatToStringShort(c.millis);
    var h, m, s, ms := ZeroPad(c.hours, 2), ZeroPad(c.mins, 2), ZeroPad(c.secs, 2), ZeroPad(c.millis, 3);
    FieldsAt(h, m, s, ms);
  }

  lemma {:induction false} FieldsAt(h: string, m: string, s: string, ms: string)
    requires |h| == 2 && |m| == 2 && |s| == 2 && |ms| == 3
    requires AllDigits(h) && AllDigits(m) && AllDigits(s) && AllDigits(ms)
    ensures var text := h + ":" + m + ":" + s + "," + ms;
      IsTimestamp(text) && text[0..2] == h && text[3..5] == m && text[6..8] == s && text[9..12] == ms
  {
    var text := h + ":" + m + ":" + s + "," + ms;
    assert text == h + (":" + (m + (":" + (s + ("," + ms)))));
    assert text[0] == h[0] && text[1] == h[1];
    assert text[3] == m[0] && text[4] == m[1];
    assert text[6] == s[0] && text[7] == s[1];
    assert text[9] == ms[0] && text[10] == ms[1] && text[11] == ms[2];
  }

  /** From 100 hours on, the hours field outgrows its two columns and the
      result is no longer a 12-character timestamp. */
  lemma {:induction false} LongDurationOutgrowsTimestamp(t: nat)
    requires t >= 100 * MillisPerHour
    ensures |FormatMillis(t)| > 12 && !IsTimestamp(FormatMillis(t))
  {
    var c := Fields(t);
    assert c.hours >= 100;
    NatToStringAtLeastThree(c.hours);
  }

  lemma {:induction false} NatToStringAtLeastThree(n: nat)
    requires n >= 100
    ensures |NatToString(n)| >= 3
  {
    assert NatToString(n) == NatToString(n / 10) + [DigitChar(n % 10)];
    assert NatToString(n / 10) == NatToString(n / 100) + [DigitChar((n / 10) % 10)];
  }
}

=== FILE: whisper_output.dfy ===
/** The subtitle file the transcription script writes for one video: the
    merged captions, numbered from 1, each as an SRT block whose times are
    formatted by `format_time` and whose text is stripped. */
module WhisperOutput {
  import opened Outcomes
  import opened Decimal
  import opened PyText
  import opened Timecode
  import opened Srt
  import opened SegmentMerge

  /** The recogniser's times are durations from the start of the audio. */
  predicate NonNegative(segs: seq<Segment>) {
    forall k :: 0 <= k < |segs| ==> segs[k].start >= 0.0 && segs[k].end >= 0.0
  }

  /** Every time lies below 100 hours, the range a two-digit hours field
      can show. */
  predicate ShortTimes(segs: seq<Segment>) {
    && NonNegative(segs)
    && forall k :: 0 <= k < |segs| ==> segs[k].start < 360000.0 && segs[k].end < 360000.0
  }

  /** The block written for caption `s` at position `i` (counted from 0):
      its number `i + 1`, its formatted times and its stripped text. */
  function WriteBlock(i: nat, s: Segment): string
    requires s.start >= 0.0 && s.end >= 0.0
  {
    NatToString(i + 1) + "\n" + FormatTime(s.start) + " --> " + FormatTime(s.end) + "\n" + Strip(s.text) + "\n\n"
  }

  /** The blocks written for `segs`, the first of them at position `from`. */
  function WriteFrom(segs: seq<Segment>, from: nat): string
    requires NonNegative(segs)
    decreases |segs|
  {
    if |segs| == 0 then "" else WriteBlock(from, segs[0]) + WriteFrom(segs[1..], from + 1)
  }

  /** The whole file written for the captions `segs`. */
  function SubtitleFile(segs: seq<Segment>): string
    requires NonNegative(segs)
  {
    WriteFrom(segs, 0)
  }

  /** The SRT record caption `s` becomes at position `i`. */
  function Record(i: nat, s: Segment): Subtitle
    requires s.start >= 0.0 && s.end >= 0.0
  {
    Subtitle(i + 1, FormatTime(s.start), FormatTime(s.end), Strip(s.text))
  }

  /** Each caption made into a record by `f`, the first at position
      `from`, the rest at consecutive positions. The only maker used is
      `Record`; it is a parameter so that the induction over the
      captions never unfolds `FormatTime`, which keeps the proofs
      about the numbering small. */
  function Numbering(segs: seq<Segment>, from: nat, f: (nat, Segment) --> Subtitle): (subs: seq<Subtitle>)
    requires forall k :: 0 <= k < |segs| ==> f.requires(from + k, segs[k])
    ensures |subs| == |segs|
    decreases |segs|
  {
    if |segs| == 0 then []
    else
      var rest := segs[1..];
      assert forall k :: 0 <= k < |rest| ==> rest[k] == segs[k + 1];
      [f(from, segs[0])] + Numbering(rest, from + 1, f)
  }

  /** Record `k` of a numbering is caption `k` made into a record at
      position `from + k`. */
  lemma {:induction false} NumberingAt(segs: seq<Segment>, from: nat, f: (nat, Segment) --> Subtitle, k: nat)
    requires forall k :: 0 <= k < |segs| ==> f.requires(from + k, segs[k])
    requires k < |segs|
    ensures Numbering(segs, from, f)[k] == f(from + k, segs[k])
    decreases k
  {
    if k > 0 {
      var rest := segs[1..];
      assert forall k :: 0 <= k < |rest| ==> rest[k] == segs[k + 1];
      NumberingAt(rest, from + 1, f, k - 1);
      assert rest[k - 1] == segs[k];
    }
  }

  /** The records the file stands for, one per caption, numbered
      consecutively from `from + 1` in caption order. */
  function Numbered(segs: seq<Segment>, from: nat): (subs: seq<Subtitle>)
    requires NonNegative(segs)
  {
    Numbering(segs, from, Record)
  }

  /** Record `k` of the numbered list is caption `k`'s record: number
      `from + k + 1`, caption `k`'s formatted times and stripped text. */
  lemma {:induction false} NumberedAt(segs: seq<Segment>, from: nat, k: nat)
    requires NonNegative(segs) && k < |segs|
    ensures |Numbered(segs, from)| == |segs|
    ensures Numbered(segs, from)[k] == Record(from + k, segs[k])
  {
    NumberingAt(segs, from, Record, k);
  }

  /** Record `k` carries caption `k`'s formatted start and end. */
  lemma {:induction false} NumberedTimesAt(segs: seq<Segment>, from: nat, k: nat)
    requires NonNegative(segs) && k < |segs|
    ensures |Numbered(segs, from)| == |segs|
    ensures Numbered(segs, from)[k].startTime == FormatTime(segs[k].start)
    ensures Numbered(segs, from)[k].endTime == FormatTime(segs[k].end)
  {
    NumberedAt(segs, from, k);
  }

  /** The file is exactly what the subtitle writer of the translation
      script would produce for the numbered records: both scripts share
      one block layout. */
  lemma {:induction false} WriteIsSerialize(segs: seq<Segment>, from: nat)
    requires NonNegative(segs)
    ensures WriteFrom(segs, from) == Serialize(Numbered(segs, from))
    decreases |segs|
  {
    if |segs| > 0 {
      var rest := segs[1..];
      assert forall k :: 0 <= k < |rest| ==> rest[k] == segs[k + 1];
      WriteIsSerialize(rest, from + 1);
      var subs := Numbered(segs, from);
      assert subs == [Record(from, segs[0])] + Numbered(rest, from + 1);
      assert subs[1..] == Numbered(rest, from + 1);
    }
  }

  /** A time below 100 hours is written as a well-formed timestamp. */
  lemma {:induction false} ShortTimeIsTimestamp(seconds: real)
    requires 0.0 <= seconds < 360000.0
    ensures IsTimestamp(FormatTime(seconds))
  {
    FormatTimeIsFormatMillis(seconds);
    FormatParseRoundTrip(TruncMillis(seconds));
  }

  /** Reading the written file back with the translation script's reader
      gives one record per caption, numbered 1 to n in order, carrying the
      formatted times and the stripped text, as long as every time lies
      below 100 hours and no stripped text holds a line of digits alone. */
  lemma {:induction false} TranscriptReadsBack(segs: seq<Segment>)
    requires ShortTimes(segs)
    requires forall k :: 0 <= k < |segs| ==> NoIndexLine(Strip(segs[k].text))
    ensures NonNegative(segs)
    ensures Parse(SubtitleFile(segs)) == Numbered(segs, 0)
  {
    var subs := Numbered(segs, 0);
    forall k | 0 <= k < |subs|
      ensures WellFormed(subs[k])
    {
      NumberedAt(segs, 0, k);
      ShortTimeIsTimestamp(segs[k].start);
      ShortTimeIsTimestamp(segs[k].end);
    }
    WriteIsSerialize(segs, 0);
    ParseSerialize(subs);
  }

  /** Merging keeps the recogniser's times: every caption starts at some
      input's start and ends at some input's end. */
  lemma {:induction false} MergeKeepsTimes(segs: seq<Segment>, gap: real)
    requires |segs| >= 1
    ensures var m := MergePrefix(segs, gap, |segs|);
      forall g :: 0 <= g < |m| ==>
        (exists k :: 0 <= k < |segs| && m[g].start == segs[k].start) &&
        (exists k :: 0 <= k < |segs| && m[g].end == segs[k].end)
  {
    var n := |segs|;
    var m, ls := MergePrefix(segs, gap, n), Leaders(segs, gap, n);
    MergeIsGrouping(segs, gap, n);
    forall g | 0 <= g < |m|
      ensures (exists k :: 0 <= k < |segs| && m[g].start == segs[k].start)
      ensures (exists k :: 0 <= k < |segs| && m[g].end == segs[k].end)
    {
      var lo, hi := ls[g], GroupEnd(ls, g, n);
      assert m[g].start == segs[lo].start;
      assert m[g].end == segs[hi - 1].end;
    }
  }

  /** Times that are non-negative (or below 100 hours) stay so after
      merging. */
  lemma {:induction false} MergeKeepsTimeBounds(segs: seq<Segment>, gap: real)
    requires |segs| >= 1
    ensures NonNegative(segs) ==> NonNegative(MergePrefix(segs, gap, |segs|))
    ensures ShortTimes(segs) ==> ShortTimes(MergePrefix(segs, gap, |segs|))
  {
    MergeKeepsTimes(segs, gap);
  }

  /** `generate_subtitle` for one video: merge the recognised segments,
      then write the file. No file for an empty transcription (merging
      raises); otherwise one block per merged caption. */
  function GenerateSubtitle(segs: seq<Segment>, gap: real): (r: Option<string>)
    requires NonNegative(segs)
    ensures r.None? <==> |segs| == 0
  {
    match Merge(segs, gap)
    case None => None
    case Some(m) =>
      MergeKeepsTimeBounds(segs, gap);
      Some(SubtitleFile(m))
  }

  /** The file written for a video reads back as the merged captions,
      numbered 1 to n, whenever the times lie below 100 hours and no
      stripped caption text holds a line of digits alone. */
  lemma {:induction false} GeneratedFileReadsBack(segs: seq<Segment>, gap: real)
    requires |segs| >= 1 && ShortTimes(segs)
    requires var m := MergePrefix(segs, gap, |segs|);
      forall g :: 0 <= g < |m| ==> NoIndexLine(Strip(m[g].text))
    ensures var m := MergePrefix(segs, gap, |segs|);
      && NonNegative(m)
      && GenerateSubtitle(segs, gap) == Some(SubtitleFile(m))
      && Parse(SubtitleFile(m)) == Numbered(m, 0)
  {
    var m := MergePrefix(segs, gap, |segs|);
    MergeKeepsTimeBounds(segs, gap);
    TranscriptReadsBack(m);
  }

  /** Of the records written for the merged captions, the first starts
      at the formatted start of the first segment and the last ends at
      the formatted end of the last segment. */
  lemma {:induction false} ReadBackSpan(segs: seq<Segment>, gap: real)
    requires |segs| >= 1 && NonNegative(segs)
    ensures var m := MergePrefix(segs, gap, |segs|);
      && NonNegative(m)
      && |Numbered(m, 0)| == |m|
      && Numbered(m, 0)[0].startTime == FormatTime(segs[0].start)
      && Numbered(m, 0)[|m| - 1].endTime == FormatTime(segs[|segs| - 1].end)
  {
    var m := MergePrefix(segs, gap, |segs|);
    MergeKeepsTimeBounds(segs, gap);
    NumberedTimesAt(m, 0, 0);
    NumberedTimesAt(m, 0, |m| - 1);
    assert m[0].start == segs[0].start;
    assert m[|m| - 1].end == segs[|segs| - 1].end;
  }
}
